=== FILE: README.md ===
# bob.db.celeba in Dafny

A functional model of the CelebA face database accessor `bob.db.celeba`, with
proofs of its properties. The accessor has three layers, and the model follows
them:

- **Records** (`models.dfy`, module `Models`, after `bob/db/celeba/models.py`):
  - An `Annotation` is built from the ten landmark integers of one image. It is
    read back as a dictionary of `(y, x)` pairs keyed `reye`, `leye`, `nose`,
    `rmouth` and `lmouth`.
  - An attributes record keeps forty flags, one per attribute name. It is read
    back as `+1`/`-1` values, either all forty or those named, in the order
    they are named.
  - A `File` has an id and a purpose: `training`, `validation` or `test`.
    `make_path` renders its six-digit name with an optional directory and
    extension.
- **Queries** (`query.dfy`, module `Query`, after `bob/db/celeba/query.py`):
  - parameter validation;
  - `objects`, which filters by purpose and sorts by id;
  - `original_file_name`, `annotations`, `attributes` and `attribute_names`.

  The sqlite tables become an in-memory `Store`: a sequence of files and two
  maps from file id to record.
- **Creation** (`create.dfy`, module `Create`, after `bob/db/celeba/create.py`):
  - `_file_id`;
  - the tokenising and conversion of each line of the three CelebA list files
    (landmarks, attributes, partition);
  - the loops that turn whole list files into records;
  - the tables that the records fill.

The Python built-ins the source relies on are modelled on their own, so their
edge cases can be stated:

- `Wrappers`:
  - the exceptions the source raises, as a `Result`;
  - `Collect`, which maps a fallible conversion over a list and stops at the
    first failure.
- `Strings`: `str.isspace`, `split()` and `rstrip()`.
- `Ints`: `int()` on text, `str()` and the `"%0Nd"` format, as in Python 3.6
  to 3.10 before their 2022 security releases. Later releases limit these conversions to 4300 digits; see Left out.
  `int()` takes a sign and `_` separators. It skips surrounding whitespace,
  except the separators U+001C to U+001F, which `str.isspace` counts as
  whitespace but `int()` does not skip.
- `Paths`: `posixpath.join` and the root half of `posixpath.splitext`.

Each Python exception is an error value: `AssertionError`, `ValueError`,
`KeyError` and `AttributeError`. Two further error values cover cases where
Python raises something less direct:

- `MissingRecord`: a file without a landmark or attribute row, which in the
  source ends in calling `None`.
- `UnboundCounter`: the `UnboundLocalError` described under Findings.

Where the comments in the source disagree with its code, the model follows the
code:

- `Annotation.__init__` (`bob/db/celeba/models.py:63-72`) does not swap left
  and right, although its comments and the class note say it does. `le` comes
  from labels 0 and 1, `re` from labels 2 and 3, `lm` from labels 6 and 7, and
  `rm` from labels 8 and 9.
- `_check_parameters_for_validity` replaces only `None` by the defaults. Its
  docstring says "None or empty", but an empty list stays empty, so
  `objects([])` lists no file.
- `test.py` asks for purposes `world`, `dev` and `eval`. The `query.py` shown
  rejects them with `ValueError`, and the model does the same.

## Model

| member | source | states |
|---|---|---|
| Wrappers.Collect | bob/db/celeba/create.py:51-57 | Converting every line of a list succeeds exactly when every line converts. The result then has one value per line, in order. Otherwise the error is that of the first line that fails, and every line before it converted. |
| Wrappers.CollectAll | bob/db/celeba/create.py:51-57 | If each line converts to the matching value, the whole list converts to exactly that list of values. |
| Strings.Split | bob/db/celeba/create.py:52 | Every token of `split()` is non-empty and holds no whitespace. |
| Strings.SplitRStrip | bob/db/celeba/create.py:52 | `rstrip()` before `split()` changes nothing: `line.rstrip().split()` has the same tokens as `line.split()`. |
| Strings.SplitAppendSpace | bob/db/celeba/create.py:52 | Trailing whitespace, such as the newline that ends a line, never changes the tokens. |
| Strings.SplitKeepsText | bob/db/celeba/create.py:52 | The tokens, glued together, are exactly the non-whitespace characters of the line, in order. Nothing is lost or invented. |
| Strings.SplitJoinTokens | bob/db/celeba/create.py:52 | Tokens written out with one blank between them split back into the same tokens. |
| Strings.SplitSeparated | bob/db/celeba/create.py:52 | `split()` skips any leading whitespace, and a token ends at the first whitespace after it. So `"a  b"` and `"a\tb"` split as `["a", "b"]`. |
| Strings.SplitLayout | bob/db/celeba/create.py:52 | Tokens laid out in columns, with any non-empty whitespace runs between them and any whitespace before and after, split back into exactly those tokens. |
| Ints.ParseInt | bob/db/celeba/create.py:56 | `int()` fails only with `ValueError`, and on text without whitespace it is exactly the literal reading. |
| Ints.ParseIntSkipsSpace | bob/db/celeba/create.py:56 | `int()` reads a literal the same whatever whitespace it skips surrounds it. |
| Ints.IntSkipsBlanks | bob/db/celeba/create.py:56 | `int(" 5\t\n")` is 5. |
| Ints.IntKeepsSeparator | bob/db/celeba/create.py:56 | `int("\x1c5")` is a `ValueError`, although `str.isspace` counts U+001C as whitespace. |
| Ints.ParseLiteral | bob/db/celeba/create.py:56 | Once the whitespace `int()` skips is removed, it accepts exactly an optional sign followed by digits, with single `_` only between digits. Everything else is a `ValueError`. |
| Ints.FormatZeroPadded | bob/db/celeba/models.py:226 | `"%0Nd" % i` has at least N characters: digits only for `i >= 0`, and a `-` followed by digits for negative `i`. Its partner is `Ints.ParseFormatZeroPadded`. |
| Ints.ParseFormatZeroPadded | bob/db/celeba/models.py:226 | `"%0Nd" % i` is at least N characters long, and `int()` reads it back as `i`, for negative `i` as well. This assumes no digit limit; see Left out. |
| Ints.FormatZeroPaddedIsToken | bob/db/celeba/models.py:226 | The zero-padded rendering of an id holds no whitespace, dot or slash. `split()` therefore keeps it whole and `splitext` does not cut into it. |
| Ints.IntToString | bob/db/celeba/create.py:91 | `str(i)` is digits for `i >= 0`, and a `-` followed by digits for negative `i`. Its partner is `Ints.ParseIntToString`. |
| Ints.ParseIntToString | bob/db/celeba/create.py:56 | `str(i)` is a single token, and `int()` reads it back as `i`. This assumes no digit limit; see Left out. |
| Paths.SplitExtRoot | bob/db/celeba/create.py:39 | The root that `splitext` returns is either the whole name or the name cut just before one of its dots. |
| Paths.SplitExtRootOfName | bob/db/celeba/create.py:39 | `splitext` recovers the stem of a base name written as stem plus extension. The stem has no slash and does not start with a dot. The extension has no further dot or slash, or is empty when the stem has no dot. |
| Paths.JoinShape | bob/db/celeba/models.py:226 | `os.path.join(a, b)` ends in `b`. An absolute `b` is the whole result. A relative `b` keeps `a` as the prefix, with a `/` directly before `b` when `a` is not empty, and adds at most that one character. |
| Paths.SplitExtRootUnder | bob/db/celeba/create.py:39 | Below a directory prefix that is empty or ends in `/`, `splitext` cuts a slash-free name exactly where it cuts the name alone. Dots in the directory never count. |
| Paths.SplitExtRootOfJoin | bob/db/celeba/models.py:226 | `splitext` undoes the extension of a path built with `os.path.join`, for any directory, dotted ones included. Cutting then joining equals joining the stem. |
| Models.PurposeNamed | bob/db/celeba/models.py:171 | A name denotes a purpose exactly when it is one of the three purpose names, and that purpose's name is the name. |
| Models.PurposeNamesBijective | bob/db/celeba/models.py:171 | There are three purpose names, naming the three purposes one-to-one. |
| Models.NewAnnotation | bob/db/celeba/models.py:59-72 | Construction succeeds exactly when there are ten labels, and otherwise raises `AssertionError`. The record keeps the file id, and its fields give back the labels in list order. |
| Models.AnnotationDict | bob/db/celeba/models.py:74-83 | The dictionary has exactly the five keys `reye`, `leye`, `nose`, `rmouth` and `lmouth`. |
| Models.AnnotationDictFromLabels | bob/db/celeba/models.py:59-83 | From ten labels, `leye` is `(labels[1], labels[0])`, `reye` is `(labels[3], labels[2])` and `nose` is `(labels[5], labels[4])`. `lmouth` is `(labels[7], labels[6])` and `rmouth` is `(labels[9], labels[8])`. |
| Models.AttributeNamesDistinct | bob/db/celeba/models.py:96-137 | There are exactly forty attribute names, and no two are equal. |
| Models.AttributeIndex | bob/db/celeba/models.py:96-137 | A name has a position exactly when it is an attribute name, and the name at that position is the name. |
| Models.AttributeIndexOfName | bob/db/celeba/models.py:96-137 | Each attribute name is found at its own position. |
| Models.NewAttributes | bob/db/celeba/models.py:146-151 | Construction succeeds exactly when there are forty values, and otherwise raises `AssertionError`. Flag `i` is set exactly when value `i` equals 1. |
| Models.AttributeValues | bob/db/celeba/models.py:153-160 | A name outside the attribute list is an `AttributeError`. Names that Python would read as other code are not modelled; see Left out. Otherwise there is one value per requested name, in the requested order. Each value is `+1` when that attribute's flag is set and `-1` when it is not. |
| Models.CallAttributes | bob/db/celeba/models.py:156-160 | Without names, all forty values are returned. With names, the call succeeds exactly when every name is an attribute name, and otherwise raises `AttributeError`. |
| Models.FullAttributeVector | bob/db/celeba/models.py:153-160 | Without names, the call gives forty values, and value `i` is the sign of flag `i`. |
| Models.AttributesRoundTrip | bob/db/celeba/models.py:146-160 | A vector of forty `+1`/`-1` values comes back unchanged from the record built from it. |
| Models.AttributesRebuild | bob/db/celeba/models.py:146-160 | Rebuilding a record from its own full vector gives the same record. |
| Models.AttributesSubset | bob/db/celeba/models.py:153-160 | Selecting by name picks, in the given order, the full vector's entry at each name's position. |
| Models.FirstImageAttributes | bob/db/celeba/test.py:77-82 | The published attribute vector of the first CelebA image survives construction and calling unchanged. |
| Models.BaseName | bob/db/celeba/models.py:226 | `"%06d%s" % (id, extension)` has at least six characters before the extension and ends in the extension. `Create.FileIdOfBaseName` reads the id back. |
| Models.BaseNameIsRelative | bob/db/celeba/models.py:226 | A rendered base name has at least six characters and never starts with `/`, so joining it to a directory never discards the directory. |
| Models.MakePath | bob/db/celeba/models.py:222-226 | A missing or empty directory or extension counts as empty. Without a directory the path is the padded id plus the extension. With one, the path is the directory joined to that base name. |
| Models.MakePathShape | bob/db/celeba/models.py:222-226 | A path starts with its directory and ends with its extension, with at least six id characters between them. |
| Query.CheckParameters | bob/db/celeba/query.py:99-113 | `None` becomes the defaults, or all valid values when there are no defaults. A single value becomes a one-element list, and a list is kept as it is. The result is a `ValueError` exactly when some element is not valid. Otherwise every returned element is valid. |
| Query.CheckParametersIdempotent | bob/db/celeba/query.py:99-113 | A validated list passed again validates to itself. |
| Query.DefaultDatabase | bob/db/celeba/query.py:30-40 | By default there is no original directory, and the original extension is `.jpg`. |
| Query.AttributeNamesOf | bob/db/celeba/query.py:116-119 | `attribute_names()` gives forty distinct names, each found at its own position. |
| Query.Insert | bob/db/celeba/query.py:141 | Inserting a file adds exactly that file to the list and nothing else. |
| Query.InsertSorted | bob/db/celeba/query.py:141 | Inserting into an id-sorted list keeps it sorted. |
| Query.SortById | bob/db/celeba/query.py:141 | Ordering by id gives a sorted permutation of the files. |
| Query.WithPurposeIn | bob/db/celeba/query.py:142-143 | Every file kept has one of the requested purposes. |
| Query.WithPurposeInCounts | bob/db/celeba/query.py:142-143 | Each file of a requested purpose is kept as often as it occurs, and every other file is dropped. |
| Query.WithPurposeInSorted | bob/db/celeba/query.py:142-143 | Filtering an id-sorted list leaves it sorted. |
| Query.WithPurposeInPartition | bob/db/celeba/query.py:142-143 | The training, validation and test filters of any list together hold exactly that list. |
| Query.Objects | bob/db/celeba/query.py:139-144 | `objects` fails with `ValueError` exactly when the purposes do not validate. Otherwise the result is sorted by id, and without purposes it is a permutation of all files. |
| Query.ObjectsSelects | bob/db/celeba/query.py:139-144 | With purposes given, each file whose purpose was requested appears as often as it is stored, and no other file appears. |
| Query.ObjectsOfUnknownPurpose | bob/db/celeba/query.py:107-110 | A single purpose is rejected exactly when it is not a purpose name. `world` is rejected with `ValueError`. |
| Query.ObjectsOfNoPurpose | bob/db/celeba/query.py:142-143 | An explicit empty list of purposes lists no file. |
| Query.ObjectsOfAllPurposes | bob/db/celeba/query.py:139-144 | Naming all three purposes lists the same files as naming none. |
| Query.ObjectsPartition | bob/db/celeba/test.py:25-50 | The training, validation and test listings all succeed, and together they hold exactly the full listing. |
| Query.OriginalFileName | bob/db/celeba/query.py:163 | The original file name starts with the database's directory and ends with its extension, with at least six id characters between them. |
| Query.OriginalFileNameWithDirectory | bob/db/celeba/query.py:163 | With a directory and the default extension, the original file name is the directory, a `/` and the six-digit name plus `.jpg`. |
| Query.OriginalFileNameOfFirstImage | bob/db/celeba/test.py:94-100 | Image 1 in `/path/to/files` is `/path/to/files/000001.jpg`. |
| Query.Annotations | bob/db/celeba/query.py:186 | Landmarks exist exactly for files with a landmark row, and their keys are the five landmark names. |
| Query.Attributes | bob/db/celeba/query.py:209-211 | A bad attribute name is a `ValueError`, raised before any record is looked up. Otherwise the call fails only for a file without an attribute row. A result has one `+1`/`-1` value per requested name. |
| Query.AttributesOfFile | bob/db/celeba/query.py:209-211 | Without names, the result is the record's full vector, as long as `attribute_names()`. |
| Query.AttributesOfNames | bob/db/celeba/query.py:209-211 | With valid names, entry `k` is the full vector's entry at the position of the `k`-th name. |
| Create.FileId | bob/db/celeba/create.py:38-39 | `_file_id` fails only with `ValueError`. A bare run of digits, with no extension, reads as its value. Its partner is `Create.FileIdOfBaseName`. |
| Create.FileIdOfBaseName | bob/db/celeba/create.py:38-39 | `_file_id` of a zero-padded id followed by an extension, or by nothing, is that id. |
| Create.FileNameRoundTrip | bob/db/celeba/create.py:38-39 | The `.jpg` name of an id is one token, and `_file_id` reads it back as the id. |
| Create.FileIdOfMakePath | bob/db/celeba/create.py:38-39 | `_file_id` inverts `make_path` without a directory, for any proper extension or none. |
| Create.Ordinal | bob/db/celeba/create.py:91 | A purpose's number is its position among the purpose names. |
| Create.PurposeOfIndex | bob/db/celeba/create.py:91 | A partition key gives a purpose only when the key is the text of that purpose's position. Any other key is a `KeyError`. |
| Create.PurposeOfIndexRoundTrip | bob/db/celeba/create.py:91 | Each purpose is reached from the text of its position, and from no other key. |
| Create.PurposeOfIndexEnumerates | bob/db/celeba/create.py:91 | Keys `0`, `1` and `2` give `training`, `validation` and `test`, in the order of the purpose names. |
| Create.PurposeOfIndexIsTextual | bob/db/celeba/create.py:108 | The lookup compares text, so ` 1`, `01` and `+1` are `KeyError`s even though `int()` reads them as 1. |
| Create.Tokens | bob/db/celeba/create.py:52 | `line.rstrip().split()` gives the same tokens as `line.split()`. Each token is non-empty and holds no whitespace. `Strings.SplitSeparated` and `Strings.SplitLayout` show that the tokens are the maximal runs, whatever the whitespace between them. |
| Create.ParseInts | bob/db/celeba/create.py:56 | `[int(s) for s in tokens]` succeeds exactly when every token is an integer. Value `k` is then token `k` read by `int()`; otherwise the error is `ValueError`. |
| Create.ParseIntTokens | bob/db/celeba/create.py:56 | Integers written out with `str` are read back by `int()`, token by token. |
| Create.ParseLandmarkLine | bob/db/celeba/create.py:52-56 | A landmark line without exactly 11 tokens raises `AssertionError`. Otherwise it succeeds exactly when the file name and all ten labels parse, and fails only with `ValueError`. The annotation then has that file id and those labels, in order. |
| Create.ParseAttributeLine | bob/db/celeba/create.py:74-78 | An attribute line without exactly 41 tokens raises `AssertionError`. Otherwise it succeeds exactly when the file name and all forty values parse, and fails only with `ValueError`. Flag `i` is then set exactly when value `i` is 1. |
| Create.ParsePartitionLine | bob/db/celeba/create.py:103-108 | A partition line without exactly 2 tokens raises `AssertionError`. A bad file name is a `ValueError`, checked before the key. A bad key is a `KeyError`. Otherwise the file has the parsed id and the keyed purpose. |
| Create.LandmarkLineRoundTrip | bob/db/celeba/create.py:52-56 | A landmark line written from an annotation, with any trailing whitespace, parses back to that annotation. |
| Create.AttributeLineRoundTrip | bob/db/celeba/create.py:74-78 | An attribute line written from a record parses back to that record. |
| Create.AlignedLandmarkLine | bob/db/celeba/create.py:52-56 | A landmark line whose columns are padded with any runs of whitespace, as in the CelebA list file, parses back to its annotation. |
| Create.AlignedAttributeLine | bob/db/celeba/create.py:74-78 | An attribute line whose columns are padded with any runs of whitespace parses back to its record. |
| Create.PartitionLineRoundTrip | bob/db/celeba/create.py:103-108 | A partition line written from a file parses back to that file. |
| Create.DataLines | bob/db/celeba/create.py:46-51 | After skipping header lines, the data lines are the rest of the file in order. Reading past the end skips nothing more. |
| Create.AddAnnotations | bob/db/celeba/create.py:41-61 | The landmark list loads exactly when every line after the two header lines parses. It then gives one annotation per such line, in file order. |
| Create.AddAttributes | bob/db/celeba/create.py:63-84 | The attribute list loads exactly when every line after the two header lines parses. It then gives one record per such line, in file order. |
| Create.AddFilesAndPurposes | bob/db/celeba/create.py:87-114 | The partition list has no header (its skip lines are commented out). It loads exactly when every line parses, and gives one file per line. |
| Create.LoadAsWritten | bob/db/celeba/create.py:51-61 | The loop as written fails after the loop when there is no data line. Otherwise it converts each data line in turn. |
| Create.AddAnnotationsAsWritten | bob/db/celeba/create.py:51-61 | As written, a landmark list with no data line fails with `UnboundCounter`. Any other list loads as the corrected loader does. |
| Create.AddAttributesAsWritten | bob/db/celeba/create.py:73-84 | As written, an attribute list with no data line fails with `UnboundCounter`. Any other list loads as the corrected loader does. |
| Create.AddFilesAndPurposesAsWritten | bob/db/celeba/create.py:102-114 | As written, an empty partition list fails with `UnboundCounter`. Any other list loads as the corrected loader does. |
| Create.HeaderOnlyLandmarkList | bob/db/celeba/create.py:46-61 | A landmark list with only its two header lines fails as written, and loads as empty once corrected. |
| Create.HeaderOnlyAttributeList | bob/db/celeba/create.py:68-84 | An attribute list with only its two header lines fails as written, and loads as empty once corrected. |
| Create.EmptyPartitionList | bob/db/celeba/create.py:97-114 | An empty partition list fails as written, and loads as empty once corrected. |
| Create.LandmarkListRoundTrip | bob/db/celeba/create.py:46-61 | Annotations written one per line after any two header lines load back as the same annotations. |
| Create.AttributeListRoundTrip | bob/db/celeba/create.py:68-84 | Attribute records written one per line after any two header lines load back as the same records. |
| Create.PartitionListRoundTrip | bob/db/celeba/create.py:97-114 | Files written one per line load back as the same files. |
| Create.ByFileId | bob/db/celeba/models.py:197-198 | Every record's id is a key, and every key maps to a record naming that id. |
| Create.ByFileIdKeys | bob/db/celeba/models.py:196-198 | A file id has a record exactly when some row names that id. |
| Create.ByFileIdLast | bob/db/celeba/models.py:196-198 | An id maps to the last row that names it. |
| Create.CreateStore | bob/db/celeba/create.py:153-155 | This is the corrected creation, built from the corrected loaders. It succeeds exactly when all three list files load; the sqlite column limits at commit are not modelled, see Left out. The files are those of the partition list. Landmark and attribute rows are keyed by the file id they name. |
| Create.CreateStoreAsWritten | bob/db/celeba/create.py:153-155 | Creation as written fails with `UnboundCounter` on an empty partition list. It also fails when a valid partition list is followed by a landmark list without data lines. It succeeds exactly when every list has data lines and the corrected creation succeeds, and then agrees with it. |
| Create.HeaderOnlyCreation | bob/db/celeba/create.py:153-155 | An empty partition list with header-only landmark and attribute lists makes creation as written fail. The corrected creation gives empty tables. |
| Create.CreatedAnnotationsPresent | bob/db/celeba/query.py:186 | After creation, a file has landmarks exactly when some landmark line names its id. |
| Create.CreatedAnnotations | bob/db/celeba/query.py:186 | After creation, a file's landmarks are the dictionary of the last landmark line naming its id, for values within the column limits named under Left out. |
| Create.CreatedAttributes | bob/db/celeba/query.py:211 | After creation, a file's attributes are the `+1`/`-1` values of the last attribute line naming its id. |

## Left out

- The sqlite session and the SQLAlchemy machinery are replaced by the in-memory `Store`. This covers `Database.__init__`'s connection, `__del__`, `is_valid`, `assert_validity`, `query`, the column types and the relationships. The `IOError` for a missing database file goes with them.
- Sorting by `File.id` is modelled as insertion sort. Files with the same id are a primary-key violation in the source, so their relative order is not modelled.
- The `exec`/`eval` attribute columns are modelled as forty flags plus a name-to-position lookup.
- Models.AttributeValues: `__call__` pastes each name into Python text and `eval`s it, and that reading of names is not modelled; the model treats every name outside the attribute list as an `AttributeError`. In Python, `"Male "` (trailing blank) reads as `Male`, `"Male)"` raises `SyntaxError`, and a name that hits another attribute of the object returns that value. `attributes` in `query.py` validates names against the list first, so only direct calls of the record see the difference.
- Landmark coordinates are `Float` columns in the source. The values stored are integers from `int()`, so the model keeps them as `int`.
- Ints.ParseLiteral: the 4300-digit limit of CPython 3.11 and of the 3.7.14, 3.8.14, 3.9.14 and 3.10.7 security releases is not modelled. There `int()` of a longer literal raises `ValueError`; here it reads the value. CelebA ids have six digits.
- Ints.FormatZeroPadded: the same digit limit is not modelled. `"%0Nd" % i` of an integer over 4300 digits raises `ValueError` in those releases, and is rendered here. `Ints.ParseFormatZeroPadded` therefore holds for every integer only where the limit does not apply.
- Ints.IntToString: the same digit limit is not modelled. `str(i)` over 4300 digits raises `ValueError` in those releases, and is rendered here. `Ints.ParseIntToString` holds for every integer only where the limit does not apply.
- Ints.ParseLiteral: the non-ASCII decimal digits that CPython's `int()` also accepts are not modelled; such text is a `ValueError` here.
- Query.CheckParameters: a `set` argument, whose iteration order Python leaves open, is not modelled. Lists and tuples are.
- Query.Annotations: for a file without a landmark row the source calls `None` and raises `TypeError`. The model reports `MissingRecord`. The same holds for `Query.Attributes`.
- Create.CreateStore: it models the corrected creation. `create()` as written aborts with `UnboundLocalError` when a list file has no data lines; `Create.CreateStoreAsWritten` models that.
- Create.CreateStore: two partition lines with the same id would fail at commit, on the `File` primary key, and the model does not reject them. For landmark and attribute rows with the same id, the source's one-to-one relationship picks a row by database order. The model keeps the last row.
- Create.CreateStore: the sqlite column limits that apply at commit are not modelled. Python's `sqlite3` refuses to bind an integer outside the signed 64-bit range, so a file id or landmark value beyond it makes `create()` fail when the session flushes (`bob/db/celeba/create.py:157`). The model stores it. The landmark columns are `Float` (`bob/db/celeba/models.py:48-57`), so a landmark integer above 2^53 is rounded when stored. `Create.CreatedAnnotations` then no longer gives the last landmark line's values exactly. CelebA ids have six digits and its coordinates are small, so neither limit is reached by the real list files.
- Files are taken as the list of their lines, so opening, reading and text decoding are left out.
- The rest of `create()` (`bob/db/celeba/create.py:135-151` and `157-158`) is left out: setting the log verbosity, unlinking an old database file, making its directory, `create_tables`, opening the session, `commit` and `close`. Its three `add_*` calls are modelled by `Create.CreateStore` and `Create.CreateStoreAsWritten`. `create_tables`, `add_command` and `_update` are left out too. They remove and create files, parse the command line and write log output.
- Logging is left out, except for the log call after each loop, whose effect is the `UnboundCounter` finding.
- Assertions are always on. Running Python with `-O` would skip the token-count checks; that case is not modelled.
- API that only `test.py` uses is absent from `query.py` and is not modelled. This covers the `world`/`dev`/`eval` aliases, `training_set`, `validation_set`, `test_set`, and the `with_attributes`/`without_attributes` filters. The unused `GROUPS` constant is left out too.
- The package configuration (`get_config`, `setup.py`) is left out.

## Findings

| source | as written | input that shows it | evidently intended | confidence | as-written member | corrected member |
|---|---|---|---|---|---|---|
| bob/db/celeba/create.py:51-61 | `counter` is bound only by the `for` loop but is logged after it, so a list with no data line raises `UnboundLocalError` | a landmark list holding only its two header lines | log 0 annotations and create none | not executed; a `for` loop that runs no iteration leaves its loop variable unbound | Create.AddAnnotationsAsWritten | Create.AddAnnotations |
| bob/db/celeba/create.py:73-84 | the same unbound `counter` after the attribute loop | an attribute list holding only its two header lines | log 0 records and create none | not executed; as above | Create.AddAttributesAsWritten | Create.AddAttributes |
| bob/db/celeba/create.py:102-114 | the same unbound `counter` after the partition loop | an empty partition list | log 0 files and create none | not executed; as above | Create.AddFilesAndPurposesAsWritten | Create.AddFilesAndPurposes |

Concrete witnesses are the lemmas `Create.HeaderOnlyLandmarkList`,
`Create.HeaderOnlyAttributeList` and `Create.EmptyPartitionList`. Each states
the failure of the as-written loader and the empty result of the corrected
one. `Create.HeaderOnlyCreation` shows the same failure for the whole
creation.

=== FILE: create.dfy ===
/**
  Building the database from the three CelebA list files: each data line is
  split into tokens, its first token names the image file whose id it
  describes, and the remaining tokens become an annotation, an attribute
  record or a partition entry. The list files are modelled as their lines.
 */
module Create {
  import opened Wrappers
  import opened Strings
  import opened Ints
  import opened Paths
  import opened Models
  import opened Query

  // ---------------------------------------------------------------------------
  // File ids
  // ---------------------------------------------------------------------------

  /** The id an image file name stands for: `int()` of the name without its extension. */
  function FileId(name: string): (r: Result<int>)
    ensures r.Err? ==> r.error == ValueError
    ensures NoSpace(name) && IsDigitRun(name) ==> r == Ok(RunValue(name))
  {
    ParseInt(SplitExtRoot(name))
  }

  /** The image file name the list files use for an id: six digits at least, then `.jpg`. */
  function FileName(id: int): string {
    BaseName(id, ".jpg")
  }

  /** A zero-padded id followed by an extension (or by nothing) reads back as the id. */
  lemma {:induction false} FileIdOfBaseName(id: int, extension: string)
    requires extension == "" || IsExtension(extension)
    ensures FileId(BaseName(id, extension)) == Ok(id)
  {
    var stem := FormatZeroPadded(id, 6);
    ParseFormatZeroPadded(id, 6);
    FormatZeroPaddedIsToken(id, 6);
    assert stem[0] != '.';
    SplitExtRootOfName(stem, extension);
  }

  /** `.jpg` is an extension in the sense of `splitext`, free of whitespace. */
  lemma JpgExtension()
    ensures IsExtension(".jpg") && NoSpace(".jpg")
  {
    var e := ".jpg";
    forall i | 0 <= i < |e| ensures !IsSpace(e[i]) && (i > 0 ==> e[i] != '.' && e[i] != '/') {
      if i == 0 {
        assert e[i] == '.';
      } else if i == 1 {
        assert e[i] == 'j';
      } else if i == 2 {
        assert e[i] == 'p';
      } else {
        assert e[i] == 'g';
      }
    }
  }

  /** The file name of an id is one token whose id is that id. */
  lemma {:induction false} FileNameRoundTrip(id: int)
    ensures IsToken(FileName(id))
    ensures FileId(FileName(id)) == Ok(id)
  {
    var stem := FormatZeroPadded(id, 6);
    JpgExtension();
    FileIdOfBaseName(id, ".jpg");
    FormatZeroPaddedIsToken(id, 6);
    NoSpaceAppend(stem, ".jpg");
    assert FileName(id) == stem + ".jpg";
  }

  /** The path a file renders without a directory gives back the file's id, for any proper extension. */
  lemma {:induction false} FileIdOfMakePath(f: File, extension: Option<string>)
    requires extension.None? || extension.value == "" || IsExtension(extension.value)
    ensures FileId(MakePath(f, None, extension)) == Ok(f.id)
  {
    FileIdOfBaseName(f.id, OrEmpty(extension));
  }

  // ---------------------------------------------------------------------------
  // Purposes by partition index
  // ---------------------------------------------------------------------------

  /** The position of a purpose among the purpose names. */
  function Ordinal(p: Purpose): (i: nat)
    ensures i < |PurposeNames| && PurposeNames[i] == PurposeName(p)
  {
    match p
    case Training => 0
    case Validation => 1
    case Test => 2
  }

  /**
    The purpose a partition column denotes: the keys are `str(i)` for the
    position `i` of each purpose name, so exactly `0`, `1` and `2`; any other
    text is a `KeyError`.
   */
  function PurposeOfIndex(key: string): (r: Result<Purpose>)
    ensures r.Err? ==> r.error == KeyError
    ensures r.Ok? ==> IntToString(Ordinal(r.value)) == key
  {
    assert Decimal(0) == "0" && Decimal(1) == "1" && Decimal(2) == "2";
    if key == "0" then Ok(Training)
    else if key == "1" then Ok(Validation)
    else if key == "2" then Ok(Test)
    else Err(KeyError)
  }

  /** Every purpose is reached from the text of its position, and only from that text. */
  lemma PurposeOfIndexRoundTrip(p: Purpose, key: string)
    ensures PurposeOfIndex(IntToString(Ordinal(p))) == Ok(p)
    ensures PurposeOfIndex(key) == Ok(p) <==> key == IntToString(Ordinal(p))
  {
    assert Decimal(0) == "0" && Decimal(1) == "1" && Decimal(2) == "2";
  }

  /** The partition table is the enumeration of the purpose names. */
  lemma PurposeOfIndexEnumerates(i: nat)
    requires i < |PurposeNames|
    ensures PurposeOfIndex(IntToString(i)).Ok?
    ensures PurposeName(PurposeOfIndex(IntToString(i)).value) == PurposeNames[i]
  {
    assert Decimal(0) == "0" && Decimal(1) == "1" && Decimal(2) == "2";
  }

  /** Text such as ` 1`, `01` or `+1` is no key, although `int()` would read it as 1. */
  lemma PurposeOfIndexIsTextual()
    ensures PurposeOfIndex(" 1") == Err(KeyError)
    ensures PurposeOfIndex("01") == Err(KeyError)
    ensures PurposeOfIndex("+1") == Err(KeyError)
  {
  }

  // ---------------------------------------------------------------------------
  // One line of a list file
  // ---------------------------------------------------------------------------

  /** The tokens of a line: `line.rstrip().split()`. */
  function Tokens(line: string): (ts: seq<string>)
    ensures ts == Split(line)
    ensures forall k :: 0 <= k < |ts| ==> IsToken(ts[k])
  {
    SplitRStrip(line);
    Split(RStrip(line))
  }

  /** `int()` of each token, failing with the first token that is no integer. */
  function ParseInts(ts: seq<string>): (r: Result<seq<int>>)
    ensures r.Ok? <==> forall k :: 0 <= k < |ts| ==> ParseInt(ts[k]).Ok?
    ensures r.Err? ==> r.error == ValueError
    ensures r.Ok? ==> |r.value| == |ts| && forall k :: 0 <= k < |ts| ==> ParseInt(ts[k]) == Ok(r.value[k])
  {
    Collect(ts, ParseInt)
  }

  /** The integers of the list written as tokens `str(i)`. */
  function IntTokens(values: seq<int>): (ts: seq<string>)
    ensures |ts| == |values|
    ensures forall k :: 0 <= k < |ts| ==> ts[k] == IntToString(values[k])
  {
    seq(|values|, k requires 0 <= k < |values| => IntToString(values[k]))
  }

  /** Tokens that each read as the corresponding integer read as the whole list. */
  lemma {:induction false} ParseIntsOfValues(ts: seq<string>, values: seq<int>)
    requires |ts| == |values|
    requires forall k :: 0 <= k < |ts| ==> ParseInt(ts[k]) == Ok(values[k])
    ensures ParseInts(ts) == Ok(values)
  {
    var r := ParseInts(ts);
    assert r.Ok?;
    assert forall k :: 0 <= k < |ts| ==> r.value[k] == values[k];
    assert r.value == values;
  }

  /** Integers written out with `str` are read back by `int()`. */
  lemma {:induction false} ParseIntTokens(values: seq<int>)
    ensures forall k :: 0 <= k < |values| ==> IsToken(IntTokens(values)[k])
    ensures ParseInts(IntTokens(values)) == Ok(values)
  {
    var ts := IntTokens(values);
    forall k | 0 <= k < |values| ensures IsToken(ts[k]) && ParseInt(ts[k]) == Ok(values[k]) {
      ParseIntToString(values[k]);
    }
    ParseIntsOfValues(ts, values);
  }

  /**
    A landmark line: exactly 11 tokens (else `AssertionError`), the file name
    and then ten integers (else `ValueError`), in list-file order.
   */
  function ParseLandmarkLine(line: string): (r: Result<Annotation>)
    ensures |Tokens(line)| != 11 ==> r == Err(AssertionError)
    ensures |Tokens(line)| == 11 ==> (r.Ok? <==> FileId(Tokens(line)[0]).Ok? && ParseInts(Tokens(line)[1..]).Ok?)
    ensures |Tokens(line)| == 11 && r.Err? ==> r.error == ValueError
    ensures r.Ok? ==> r.value.fileId == FileId(Tokens(line)[0]).value
    ensures r.Ok? ==> Labels(r.value) == ParseInts(Tokens(line)[1..]).value
  {
    var splits := Tokens(line);
    if |splits| != 11 then Err(AssertionError)
    else
      var id :- FileId(splits[0]);
      var labels :- ParseInts(splits[1..]);
      NewAnnotation(id, labels)
  }

  /**
    An attribute line: exactly 41 tokens (else `AssertionError`), the file
    name and then forty integers (else `ValueError`), of which exactly the
    `1`s set a flag.
   */
  function ParseAttributeLine(line: string): (r: Result<AttributeRecord>)
    ensures |Tokens(line)| != 41 ==> r == Err(AssertionError)
    ensures |Tokens(line)| == 41 ==> (r.Ok? <==> FileId(Tokens(line)[0]).Ok? && ParseInts(Tokens(line)[1..]).Ok?)
    ensures |Tokens(line)| == 41 && r.Err? ==> r.error == ValueError
    ensures r.Ok? ==> r.value.fileId == FileId(Tokens(line)[0]).value
    ensures r.Ok? ==> forall i :: 0 <= i < 40 ==>
      (r.value.flags[i] <==> ParseInt(Tokens(line)[i + 1]) == Ok(1))
  {
    var splits := Tokens(line);
    if |splits| != 41 then Err(AssertionError)
    else
      var id :- FileId(splits[0]);
      var values :- ParseInts(splits[1..]);
      assert forall i :: 0 <= i < 40 ==> splits[1..][i] == splits[i + 1];
      NewAttributes(id, values)
  }

  /**
    A partition line: exactly 2 tokens (else `AssertionError`), the file name
    (else `ValueError`) and the partition index (else `KeyError`), checked in
    that order.
   */
  function ParsePartitionLine(line: string): (r: Result<File>)
    ensures |Tokens(line)| != 2 ==> r == Err(AssertionError)
    ensures |Tokens(line)| == 2 && FileId(Tokens(line)[0]).Err? ==> r == Err(ValueError)
    ensures |Tokens(line)| == 2 && FileId(Tokens(line)[0]).Ok? ==>
      && (r.Ok? <==> PurposeOfIndex(Tokens(line)[1]).Ok?)
      && (r.Err? ==> r.error == KeyError)
    ensures r.Ok? ==> r == Ok(File(FileId(Tokens(line)[0]).value, PurposeOfIndex(Tokens(line)[1]).value))
  {
    var splits := Tokens(line);
    if |splits| != 2 then Err(AssertionError)
    else
      var id :- FileId(splits[0]);
      var purpose :- PurposeOfIndex(splits[1]);
      Ok(File(id, purpose))
  }

  // ---------------------------------------------------------------------------
  // Writing lines back: the inverses of the line parsers
  // ---------------------------------------------------------------------------

  /** The landmark line of an annotation: file name, then its ten labels, blank-separated. */
  function LandmarkLine(a: Annotation): string {
    JoinTokens([FileName(a.fileId)] + IntTokens(Labels(a)))
  }

  /** The attribute line of a record: file name, then its forty `+1`/`-1` values. */
  function AttributeLine(rec: AttributeRecord): string {
    JoinTokens([FileName(rec.fileId)] + IntTokens(CallAttributes(rec, None).value))
  }

  /** The partition line of a file: file name, then the position of its purpose. */
  function PartitionLine(f: File): string {
    JoinTokens([FileName(f.id)] + IntTokens([Ordinal(f.purpose)]))
  }

  /** The file name and value tokens of a written line are all proper tokens. */
  lemma WrittenTokens(id: int, values: seq<int>)
    ensures forall k :: 0 <= k < |[FileName(id)] + IntTokens(values)| ==> IsToken(([FileName(id)] + IntTokens(values))[k])
  {
    var ts := [FileName(id)] + IntTokens(values);
    FileNameRoundTrip(id);
    ParseIntTokens(values);
    forall k | 0 <= k < |ts| ensures IsToken(ts[k]) {
      if k > 0 {
        assert ts[k] == IntTokens(values)[k - 1];
      }
    }
  }

  /** `split()` returns the tokens of a written line, whatever whitespace follows it. */
  lemma {:induction false} SplitWrittenLine(id: int, values: seq<int>, trailing: string)
    requires AllSpace(trailing)
    ensures Tokens(JoinTokens([FileName(id)] + IntTokens(values)) + trailing) == [FileName(id)] + IntTokens(values)
  {
    var ts := [FileName(id)] + IntTokens(values);
    WrittenTokens(id, values);
    SplitJoinTokens(ts);
    SplitAppendSpace(JoinTokens(ts), trailing);
  }

  /** Reading back a written landmark line, with any trailing whitespace such as its newline, gives the annotation. */
  lemma {:induction false} LandmarkLineRoundTrip(a: Annotation, trailing: string)
    requires AllSpace(trailing)
    ensures ParseLandmarkLine(LandmarkLine(a) + trailing) == Ok(a)
  {
    var ts := [FileName(a.fileId)] + IntTokens(Labels(a));
    SplitWrittenLine(a.fileId, Labels(a), trailing);
    FileNameRoundTrip(a.fileId);
    ParseIntTokens(Labels(a));
    assert ts[1..] == IntTokens(Labels(a));
  }

  /**
    The CelebA list files pad their columns with runs of blanks. A landmark
    line laid out with any whitespace before, between and after its columns
    reads back as the annotation.
   */
  lemma {:induction false} AlignedLandmarkLine(a: Annotation, lead: string, ws: seq<string>)
    requires AllSpace(lead)
    requires |ws| == 11
    requires forall k :: 0 <= k < |ws| ==> AllSpace(ws[k])
    requires forall k :: 0 <= k < 10 ==> |ws[k]| > 0
    ensures ParseLandmarkLine(lead + Layout([FileName(a.fileId)] + IntTokens(Labels(a)), ws)) == Ok(a)
  {
    var ts := [FileName(a.fileId)] + IntTokens(Labels(a));
    WrittenTokens(a.fileId, Labels(a));
    assert IsLayout(ts, ws);
    SplitLayout(lead, ts, ws);
    FileNameRoundTrip(a.fileId);
    ParseIntTokens(Labels(a));
    assert ts[1..] == IntTokens(Labels(a));
  }

  /** Reading back a written attribute line gives the record. */
  lemma {:induction false} AttributeLineRoundTrip(rec: AttributeRecord, trailing: string)
    requires AllSpace(trailing)
    ensures ParseAttributeLine(AttributeLine(rec) + trailing) == Ok(rec)
  {
    var values := CallAttributes(rec, None).value;
    FullAttributeVector(rec);
    var ts := [FileName(rec.fileId)] + IntTokens(values);
    SplitWrittenLine(rec.fileId, values, trailing);
    FileNameRoundTrip(rec.fileId);
    ParseIntTokens(values);
    assert ts[1..] == IntTokens(values);
    var line := AttributeLine(rec) + trailing;
    assert Tokens(line) == ts && |ts| == 41;
    assert ParseAttributeLine(line) == NewAttributes(rec.fileId, values);
    AttributesRebuild(rec);
  }

  /** Likewise, an attribute line padded with any column whitespace reads back as the record. */
  lemma {:induction false} AlignedAttributeLine(rec: AttributeRecord, lead: string, ws: seq<string>)
    requires AllSpace(lead)
    requires |ws| == 41
    requires forall k :: 0 <= k < |ws| ==> AllSpace(ws[k])
    requires forall k :: 0 <= k < 40 ==> |ws[k]| > 0
    ensures ParseAttributeLine(lead + Layout([FileName(rec.fileId)] + IntTokens(CallAttributes(rec, None).value), ws)) == Ok(rec)
  {
    var values := CallAttributes(rec, None).value;
    FullAttributeVector(rec);
    var ts := [FileName(rec.fileId)] + IntTokens(values);
    WrittenTokens(rec.fileId, values);
    assert IsLayout(ts, ws);
    var line := lead + Layout(ts, ws);
    SplitLayout(lead, ts, ws);
    FileNameRoundTrip(rec.fileId);
    ParseIntTokens(values);
    assert ts[1..] == IntTokens(values);
    assert Tokens(line) == ts && |ts| == 41;
    assert ParseAttributeLine(line) == NewAttributes(rec.fileId, values);
    AttributesRebuild(rec);
  }

  /** Reading back a written partition line gives the file. */
  lemma {:induction false} PartitionLineRoundTrip(f: File, trailing: string)
    requires AllSpace(trailing)
    ensures ParsePartitionLine(PartitionLine(f) + trailing) == Ok(f)
  {
    var key := IntToString(Ordinal(f.purpose));
    SplitWrittenLine(f.id, [Ordinal(f.purpose)], trailing);
    FileNameRoundTrip(f.id);
    assert Tokens(PartitionLine(f) + trailing) == [FileName(f.id), key];
    PurposeOfIndexRoundTrip(f.purpose, key);
  }

  // ---------------------------------------------------------------------------
  // Whole list files
  // ---------------------------------------------------------------------------

  /** The lines after `skip` header lines; reading past the end yields nothing. */
  function DataLines(lines: seq<string>, skip: nat): (data: seq<string>)
    ensures |data| == if skip < |lines| then |lines| - skip else 0
    ensures forall k :: 0 <= k < |data| ==> data[k] == lines[skip + k]
  {
    if skip < |lines| then lines[skip..] else []
  }

  /**
    The load loop as written: it reports how many records it created through
    `counter`, which is never bound when there are no data lines, so a list
    file with nothing after its header aborts with `UnboundLocalError` after
    all lines parsed fine.
   */
  function LoadAsWritten<T>(data: seq<string>, parse: string -> Result<T>): (r: Result<seq<T>>)
    ensures |data| == 0 ==> r == Err(UnboundCounter)
    ensures |data| > 0 ==> r == Collect(data, parse)
  {
    var records :- Collect(data, parse);
    if |data| == 0 then Err(UnboundCounter) else Ok(records)
  }

  /** The list of landmarks: two header lines, then one landmark line per image, each giving one annotation. */
  function AddAnnotations(lines: seq<string>): (r: Result<seq<Annotation>>)
    ensures r.Ok? <==> forall k :: 2 <= k < |lines| ==> ParseLandmarkLine(lines[k]).Ok?
    ensures r.Ok? ==> |r.value| == (if |lines| > 2 then |lines| - 2 else 0)
    ensures r.Ok? ==> forall k :: 0 <= k < |r.value| ==> ParseLandmarkLine(lines[k + 2]) == Ok(r.value[k])
  {
    Collect(DataLines(lines, 2), ParseLandmarkLine)
  }

  /** The list of attributes: two header lines, then one attribute line per image, each giving one record. */
  function AddAttributes(lines: seq<string>): (r: Result<seq<AttributeRecord>>)
    ensures r.Ok? <==> forall k :: 2 <= k < |lines| ==> ParseAttributeLine(lines[k]).Ok?
    ensures r.Ok? ==> |r.value| == (if |lines| > 2 then |lines| - 2 else 0)
    ensures r.Ok? ==> forall k :: 0 <= k < |r.value| ==> ParseAttributeLine(lines[k + 2]) == Ok(r.value[k])
  {
    Collect(DataLines(lines, 2), ParseAttributeLine)
  }

  /** The partition list: no header, one line per image, each giving one file. */
  function AddFilesAndPurposes(lines: seq<string>): (r: Result<seq<File>>)
    ensures r.Ok? <==> forall k :: 0 <= k < |lines| ==> ParsePartitionLine(lines[k]).Ok?
    ensures r.Ok? ==> |r.value| == |lines|
    ensures r.Ok? ==> forall k :: 0 <= k < |r.value| ==> ParsePartitionLine(lines[k]) == Ok(r.value[k])
  {
    Collect(DataLines(lines, 0), ParsePartitionLine)
  }

  /** The landmark loader as written: a list file with no data line fails after parsing. */
  function AddAnnotationsAsWritten(lines: seq<string>): (r: Result<seq<Annotation>>)
    ensures |lines| <= 2 ==> r == Err(UnboundCounter)
    ensures |lines| > 2 ==> r == AddAnnotations(lines)
  {
    LoadAsWritten(DataLines(lines, 2), ParseLandmarkLine)
  }

  /** The attribute loader as written. */
  function AddAttributesAsWritten(lines: seq<string>): (r: Result<seq<AttributeRecord>>)
    ensures |lines| <= 2 ==> r == Err(UnboundCounter)
    ensures |lines| > 2 ==> r == AddAttributes(lines)
  {
    LoadAsWritten(DataLines(lines, 2), ParseAttributeLine)
  }

  /** The partition loader as written. */
  function AddFilesAndPurposesAsWritten(lines: seq<string>): (r: Result<seq<File>>)
    ensures |lines| == 0 ==> r == Err(UnboundCounter)
    ensures |lines| > 0 ==> r == AddFilesAndPurposes(lines)
  {
    LoadAsWritten(DataLines(lines, 0), ParsePartitionLine)
  }

  /** A landmark list holding only its two header lines. */
  lemma HeaderOnlyLandmarkList()
    ensures AddAnnotationsAsWritten(["202599\n", "lefteye_x lefteye_y righteye_x righteye_y nose_x nose_y leftmouth_x leftmouth_y rightmouth_x rightmouth_y\n"])
         == Err(UnboundCounter)
    ensures AddAnnotations(["202599\n", "lefteye_x lefteye_y righteye_x righteye_y nose_x nose_y leftmouth_x leftmouth_y rightmouth_x rightmouth_y\n"])
         == Ok([])
  {
  }

  /** An attribute list holding only its two header lines. */
  lemma HeaderOnlyAttributeList()
    ensures AddAttributesAsWritten(["202599\n", "5_o_Clock_Shadow Arched_Eyebrows Attractive\n"]) == Err(UnboundCounter)
    ensures AddAttributes(["202599\n", "5_o_Clock_Shadow Arched_Eyebrows Attractive\n"]) == Ok([])
  {
  }

  /** An empty partition list. */
  lemma EmptyPartitionList()
    ensures AddFilesAndPurposesAsWritten([]) == Err(UnboundCounter)
    ensures AddFilesAndPurposes([]) == Ok([])
  {
  }

  /** Each text followed by a newline: the lines of a written list file. */
  function WithNewlines(texts: seq<string>): (lines: seq<string>)
    ensures |lines| == |texts|
    ensures forall k :: 0 <= k < |lines| ==> lines[k] == texts[k] + "\n"
  {
    seq(|texts|, k requires 0 <= k < |texts| => texts[k] + "\n")
  }

  /** Writing annotations as a landmark list, after any two header lines, and loading it gives them back. */
  lemma {:induction false} LandmarkListRoundTrip(header: seq<string>, annotations: seq<Annotation>)
    requires |header| == 2
    ensures AddAnnotations(header + WithNewlines(seq(|annotations|, k requires 0 <= k < |annotations| => LandmarkLine(annotations[k]))))
         == Ok(annotations)
  {
    var body := WithNewlines(seq(|annotations|, k requires 0 <= k < |annotations| => LandmarkLine(annotations[k])));
    assert DataLines(header + body, 2) == body;
    assert AllSpace("\n");
    forall k | 0 <= k < |body| ensures ParseLandmarkLine(body[k]) == Ok(annotations[k]) {
      LandmarkLineRoundTrip(annotations[k], "\n");
    }
    CollectAll(body, ParseLandmarkLine, annotations);
  }

  /** Writing attribute records as an attribute list, after any two header lines, and loading it gives them back. */
  lemma {:induction false} AttributeListRoundTrip(header: seq<string>, records: seq<AttributeRecord>)
    requires |header| == 2
    ensures AddAttributes(header + WithNewlines(seq(|records|, k requires 0 <= k < |records| => AttributeLine(records[k]))))
         == Ok(records)
  {
    var body := WithNewlines(seq(|records|, k requires 0 <= k < |records| => AttributeLine(records[k])));
    assert DataLines(header + body, 2) == body;
    assert AllSpace("\n");
    forall k | 0 <= k < |body| ensures ParseAttributeLine(body[k]) == Ok(records[k]) {
      AttributeLineRoundTrip(records[k], "\n");
    }
    CollectAll(body, ParseAttributeLine, records);
  }

  /** Writing files as a partition list and loading it gives them back. */
  lemma {:induction false} PartitionListRoundTrip(files: seq<File>)
    ensures AddFilesAndPurposes(WithNewlines(seq(|files|, k requires 0 <= k < |files| => PartitionLine(files[k]))))
         == Ok(files)
  {
    var body := WithNewlines(seq(|files|, k requires 0 <= k < |files| => PartitionLine(files[k])));
    assert DataLines(body, 0) == body;
    assert AllSpace("\n");
    forall k | 0 <= k < |body| ensures ParsePartitionLine(body[k]) == Ok(files[k]) {
      PartitionLineRoundTrip(files[k], "\n");
    }
    CollectAll(body, ParsePartitionLine, files);
  }

  // ---------------------------------------------------------------------------
  // The created tables
  // ---------------------------------------------------------------------------

  /** Records keyed by the file id they belong to; a later record for the same id replaces an earlier one. */
  function ByFileId<T>(records: seq<T>, fileId: T -> int): (m: map<int, T>)
    ensures forall id :: id in m ==> fileId(m[id]) == id
    ensures forall k :: 0 <= k < |records| ==> fileId(records[k]) in m
  {
    if |records| == 0 then map[]
    else
      var last := records[|records| - 1];
      ByFileId(records[..|records| - 1], fileId)[fileId(last) := last]
  }

  /** The keys are exactly the ids some record names. */
  lemma {:induction false} ByFileIdKeys<T>(records: seq<T>, fileId: T -> int, id: int)
    ensures id in ByFileId(records, fileId) <==> exists k :: 0 <= k < |records| && fileId(records[k]) == id
  {
    if |records| > 0 {
      var init := records[..|records| - 1];
      ByFileIdKeys(init, fileId, id);
      if exists k :: 0 <= k < |init| && fileId(init[k]) == id {
        var k :| 0 <= k < |init| && fileId(init[k]) == id;
        assert records[k] == init[k];
      }
      if exists k :: 0 <= k < |records| && fileId(records[k]) == id {
        var k :| 0 <= k < |records| && fileId(records[k]) == id;
        if k < |records| - 1 {
          assert init[k] == records[k];
        }
      }
    }
  }

  /** An id maps to the last record that names it. */
  lemma {:induction false} ByFileIdLast<T>(records: seq<T>, fileId: T -> int, k: nat)
    requires k < |records|
    requires forall j :: k < j < |records| ==> fileId(records[j]) != fileId(records[k])
    ensures fileId(records[k]) in ByFileId(records, fileId)
    ensures ByFileId(records, fileId)[fileId(records[k])] == records[k]
  {
    if k < |records| - 1 {
      var init := records[..|records| - 1];
      assert init[k] == records[k];
      forall j | k < j < |init| ensures fileId(init[j]) != fileId(init[k]) {
        assert init[j] == records[j];
      }
      ByFileIdLast(init, fileId, k);
    }
  }

  /** The file an annotation row belongs to. */
  function AnnotationOwner(a: Annotation): int {
    a.fileId
  }

  /** The file an attribute row belongs to. */
  function RecordOwner(rec: AttributeRecord): int {
    rec.fileId
  }

  /**
    The whole creation: the partition list first, then the landmarks, then the
    attributes; the first failure aborts it.
   */
  function CreateStore(partition: seq<string>, landmarks: seq<string>, attributes: seq<string>): (r: Result<Store>)
    ensures r.Ok? <==> AddFilesAndPurposes(partition).Ok? && AddAnnotations(landmarks).Ok? && AddAttributes(attributes).Ok?
    ensures r.Ok? ==> r.value.files == AddFilesAndPurposes(partition).value
    ensures r.Ok? ==> r.value.annotations == ByFileId(AddAnnotations(landmarks).value, AnnotationOwner)
    ensures r.Ok? ==> r.value.attributes == ByFileId(AddAttributes(attributes).value, RecordOwner)
  {
    var files :- AddFilesAndPurposes(partition);
    var annotations :- AddAnnotations(landmarks);
    var records :- AddAttributes(attributes);
    Ok(Store(files, ByFileId(annotations, AnnotationOwner), ByFileId(records, RecordOwner)))
  }

  /**
    The creation as written: the same three steps with the loaders as
    written, so a list file without data lines aborts it; otherwise it agrees
    with the corrected creation.
   */
  function CreateStoreAsWritten(partition: seq<string>, landmarks: seq<string>, attributes: seq<string>): (r: Result<Store>)
    ensures |partition| == 0 ==> r == Err(UnboundCounter)
    ensures |partition| > 0 && AddFilesAndPurposes(partition).Ok? && |landmarks| <= 2 ==> r == Err(UnboundCounter)
    ensures r.Ok? <==> |partition| > 0 && |landmarks| > 2 && |attributes| > 2 && CreateStore(partition, landmarks, attributes).Ok?
    ensures r.Ok? ==> r == CreateStore(partition, landmarks, attributes)
  {
    var files :- AddFilesAndPurposesAsWritten(partition);
    var annotations :- AddAnnotationsAsWritten(landmarks);
    var records :- AddAttributesAsWritten(attributes);
    Ok(Store(files, ByFileId(annotations, AnnotationOwner), ByFileId(records, RecordOwner)))
  }

  /** With an empty partition list and header-only landmark and attribute lists, creation as written fails; corrected, it creates empty tables. */
  lemma HeaderOnlyCreation()
    ensures CreateStoreAsWritten([], ["202599\n", "lefteye_x\n"], ["202599\n", "Male\n"]) == Err(UnboundCounter)
    ensures CreateStore([], ["202599\n", "lefteye_x\n"], ["202599\n", "Male\n"]) == Ok(Store([], map[], map[]))
  {
  }

  /** After a successful creation, a file has landmarks exactly when some landmark line names its id. */
  lemma {:induction false} CreatedAnnotationsPresent(partition: seq<string>, landmarks: seq<string>, attributes: seq<string>, f: File)
    requires CreateStore(partition, landmarks, attributes).Ok?
    ensures Annotations(DefaultDatabase(CreateStore(partition, landmarks, attributes).value), f).Ok?
        <==> exists j :: 0 <= j < |AddAnnotations(landmarks).value| && AddAnnotations(landmarks).value[j].fileId == f.id
  {
    var st := CreateStore(partition, landmarks, attributes).value;
    var loaded := AddAnnotations(landmarks).value;
    assert st.annotations == ByFileId(loaded, AnnotationOwner);
    ByFileIdKeys(loaded, AnnotationOwner, f.id);
    assert Annotations(DefaultDatabase(st), f).Ok? <==> f.id in st.annotations;
  }

  /** The landmarks a file then has are those of the last landmark line naming its id. */
  lemma {:induction false} CreatedAnnotations(partition: seq<string>, landmarks: seq<string>, attributes: seq<string>, f: File, k: nat)
    requires CreateStore(partition, landmarks, attributes).Ok?
    requires k < |AddAnnotations(landmarks).value|
    requires AddAnnotations(landmarks).value[k].fileId == f.id
    requires forall j :: k < j < |AddAnnotations(landmarks).value| ==> AddAnnotations(landmarks).value[j].fileId != f.id
    ensures Annotations(DefaultDatabase(CreateStore(partition, landmarks, attributes).value), f)
         == Ok(AnnotationDict(AddAnnotations(landmarks).value[k]))
  {
    var st := CreateStore(partition, landmarks, attributes).value;
    var loaded := AddAnnotations(landmarks).value;
    assert st.annotations == ByFileId(loaded, AnnotationOwner);
    ByFileIdLast(loaded, AnnotationOwner, k);
  }

  /**
    Likewise for attributes: after a successful creation, the full attribute
    vector of a file is that of the last attribute line naming its id.
   */
  lemma {:induction false} CreatedAttributes(partition: seq<string>, landmarks: seq<string>, attributes: seq<string>, f: File, k: nat)
    requires CreateStore(partition, landmarks, attributes).Ok?
    requires k < |AddAttributes(attributes).value|
    requires AddAttributes(attributes).value[k].fileId == f.id
    requires forall j :: k < j < |AddAttributes(attributes).value| ==> AddAttributes(attributes).value[j].fileId != f.id
    ensures Attributes(DefaultDatabase(CreateStore(partition, landmarks, attributes).value), f, Unspecified)
         == CallAttributes(AddAttributes(attributes).value[k], None)
  {
    var st := CreateStore(partition, landmarks, attributes).value;
    var recs := AddAttributes(attributes).value;
    assert st.attributes == ByFileId(recs, RecordOwner);
    ByFileIdLast(recs, RecordOwner, k);
    AttributesOfFile(DefaultDatabase(st), f);
  }
}

=== FILE: ints.dfy ===
/**
  Decimal integers as Python 3.6 to 3.10 read and write them: `int(text)`,
  `str(n)` and the `"%0Nd"` zero-padded format used for CelebA file names.
  Later releases refuse conversions of more than 4300 digits; that limit is
  not modelled, so every integer here has a text form.
 */
module Ints {
  import opened Wrappers
  import opened Strings

  predicate IsDigit(c: char) {
    '0' <= c <= '9'
  }

  /** The value of a decimal digit character (0 for anything else). */
  function DigitValue(c: char): nat {
    if IsDigit(c) then (c as int) - ('0' as int) else 0
  }

  function DigitChar(d: nat): (c: char)
    requires d < 10
    ensures IsDigit(c) && DigitValue(c) == d
  {
    (('0' as int) + d) as char
  }

  predicate AllDigits(s: string) {
    forall i :: 0 <= i < |s| ==> IsDigit(s[i])
  }

  /**
    The digit part `int()` accepts in base 10: digits, where a single `_` may
    stand between two digits (Python 3.6 and later).
   */
  predicate IsDigitRun(s: string) {
    && |s| > 0
    && IsDigit(s[0])
    && IsDigit(s[|s| - 1])
    && (forall i :: 0 <= i < |s| ==> IsDigit(s[i]) || s[i] == '_')
    && (forall i, j :: 0 <= i < j < |s| && s[i] == '_' && s[j] == '_' ==> j > i + 1)
  }

  /** The number a digit run denotes; separators carry no value. */
  function RunValue(s: string): nat {
    if |s| == 0 then 0
    else if s[|s| - 1] == '_' then RunValue(s[..|s| - 1])
    else 10 * RunValue(s[..|s| - 1]) + DigitValue(s[|s| - 1])
  }

  /** The text `int()` accepts once surrounding whitespace is stripped: an optional sign and a digit run. */
  predicate IsIntLiteral(t: string) {
    if |t| > 0 && (t[0] == '+' || t[0] == '-') then IsDigitRun(t[1..]) else IsDigitRun(t)
  }

  /** The value of an already stripped literal: `ValueError` for anything else. */
  function ParseLiteral(t: string): (r: Result<int>)
    ensures r.Ok? <==> IsIntLiteral(t)
    ensures r.Err? ==> r.error == ValueError
  {
    if |t| > 0 && (t[0] == '+' || t[0] == '-') then
      if IsDigitRun(t[1..]) then
        var v: int := RunValue(t[1..]);
        Ok(if t[0] == '-' then -v else v)
      else Err(ValueError)
    else if IsDigitRun(t) then Ok(RunValue(t))
    else Err(ValueError)
  }

  /**
    The whitespace `int()` skips around a literal. Text that is all ASCII
    reaches the parser unchanged, and the parser skips only blank, tab,
    newline, vertical tab, form feed and carriage return; so the separators
    U+001C to U+001F, whitespace for `str.isspace`, are not skipped. Any other
    Unicode whitespace is turned into a blank first and so is skipped.
   */
  predicate IsIntSpace(c: char) {
    IsSpace(c) && !('\U{1C}' <= c <= '\U{1F}')
  }

  /** The number of characters `int()` skips at the start of `s`. */
  function IntSpacePrefix(s: string): (n: nat)
    ensures n <= |s|
    ensures forall i :: 0 <= i < n ==> IsIntSpace(s[i])
    ensures n < |s| ==> !IsIntSpace(s[n])
  {
    if |s| > 0 && IsIntSpace(s[0]) then
      var n := 1 + IntSpacePrefix(s[1..]);
      assert forall i :: 1 <= i < n ==> s[i] == s[1..][i - 1];
      n
    else 0
  }

  /** The number of characters `int()` skips at the end of `s`. */
  function IntSpaceSuffix(s: string): (n: nat)
    ensures n <= |s|
    ensures forall i :: |s| - n <= i < |s| ==> IsIntSpace(s[i])
    ensures n < |s| ==> !IsIntSpace(s[|s| - n - 1])
  {
    if |s| > 0 && IsIntSpace(s[|s| - 1]) then
      var n := 1 + IntSpaceSuffix(s[..|s| - 1]);
      assert forall i :: |s| - n <= i < |s| - 1 ==> s[i] == s[..|s| - 1][i];
      n
    else 0
  }

  /** The text `int()` parses: `s` without the whitespace it skips at either end. */
  function IntStrip(s: string): string {
    var t := s[..|s| - IntSpaceSuffix(s)];
    t[IntSpacePrefix(t)..]
  }

  /** Python's `int(s)` in base 10: surrounding whitespace is skipped, and the rest must be a literal. */
  function ParseInt(s: string): (r: Result<int>)
    ensures r.Err? ==> r.error == ValueError
    ensures NoSpace(s) ==> r == ParseLiteral(s)
  {
    IntStripNoSpace(s);
    ParseLiteral(IntStrip(s))
  }

  /** Whitespace-free text is left unchanged by the stripping `int()` does. */
  lemma IntStripNoSpace(s: string)
    ensures NoSpace(s) ==> IntStrip(s) == s
  {
    if NoSpace(s) && |s| > 0 {
      assert !IsSpace(s[|s| - 1]);
      assert !IsSpace(s[0]);
    }
  }

  /** Every character of `w` is whitespace `int()` skips. */
  predicate AllIntSpace(w: string) {
    forall i :: 0 <= i < |w| ==> IsIntSpace(w[i])
  }

  lemma {:induction false} IntSpaceSuffixOf(a: string, w: string)
    requires AllIntSpace(w)
    requires |a| > 0 && !IsIntSpace(a[|a| - 1])
    ensures IntSpaceSuffix(a + w) == |w|
    decreases |w|
  {
    if |w| == 0 {
      assert a + w == a;
    } else {
      assert (a + w)[..|a + w| - 1] == a + w[..|w| - 1];
      IntSpaceSuffixOf(a, w[..|w| - 1]);
    }
  }

  lemma {:induction false} IntSpacePrefixOf(w: string, a: string)
    requires AllIntSpace(w)
    requires |a| > 0 && !IsIntSpace(a[0])
    ensures IntSpacePrefix(w + a) == |w|
    decreases |w|
  {
    if |w| == 0 {
      assert w + a == a;
    } else {
      assert (w + a)[1..] == w[1..] + a;
      IntSpacePrefixOf(w[1..], a);
    }
  }

  /** `int()` reads a literal the same whatever whitespace it skips surrounds it. */
  lemma {:induction false} ParseIntSkipsSpace(before: string, t: string, after: string)
    requires AllIntSpace(before) && AllIntSpace(after)
    requires IsIntLiteral(t)
    ensures ParseInt(before + t + after) == ParseLiteral(t)
  {
    assert |t| > 0 && !IsIntSpace(t[0]) && !IsIntSpace(t[|t| - 1]) by {
      if |t| > 0 && (t[0] == '+' || t[0] == '-') {
        assert t[1..][|t| - 2] == t[|t| - 1];
      }
    }
    var s := before + t + after;
    assert (before + t)[|before + t| - 1] == t[|t| - 1];
    IntSpaceSuffixOf(before + t, after);
    assert s[..|s| - |after|] == before + t;
    IntSpacePrefixOf(before, t);
    assert (before + t)[|before|..] == t;
  }

  /** Blanks, tabs and newlines around a literal are skipped. */
  lemma IntSkipsBlanks()
    ensures ParseInt(" 5\t\n") == Ok(5)
  {
    var t := "5";
    assert ParseLiteral(t) == Ok(5) by {
      assert IsDigitRun(t);
      assert t[..0] == "";
    }
    assert AllIntSpace(" ") && AllIntSpace("\t\n");
    ParseIntSkipsSpace(" ", t, "\t\n");
    assert " " + t + "\t\n" == " 5\t\n";
  }

  /** The separator U+001C is whitespace for `str.isspace`, yet `int()` does not skip it. */
  lemma IntKeepsSeparator()
    ensures ParseInt("\U{1C}5") == Err(ValueError)
  {
    var s := "\U{1C}5";
    assert IntSpaceSuffix(s) == 0;
    assert s[..|s| - 0] == s;
    assert IntSpacePrefix(s) == 0;
    assert IntStrip(s) == s;
    assert !IsDigitRun(s);
  }

  /** Canonical decimal digits of a natural number, no leading zero. */
  function Decimal(n: nat): (s: string)
    ensures |s| > 0 && AllDigits(s)
    ensures s[0] == '0' ==> n == 0
  {
    if n < 10 then [DigitChar(n)]
    else Decimal(n / 10) + [DigitChar(n % 10)]
  }

  /** The absolute value, the part `str` and `%d` write as digits. */
  function Magnitude(i: int): (n: nat)
    ensures n == i || n == -i
  {
    if i < 0 then -i else i
  }

  /** Python's `str(i)` for an integer. */
  function IntToString(i: int): (s: string)
    ensures i >= 0 ==> |s| > 0 && AllDigits(s)
    ensures i < 0 ==> |s| > 1 && s[0] == '-' && AllDigits(s[1..])
  {
    if i < 0 then "-" + Decimal(Magnitude(i)) else Decimal(Magnitude(i))
  }

  function Zeros(k: nat): (z: string)
    ensures |z| == k && AllDigits(z)
    ensures forall j :: 0 <= j < k ==> z[j] == '0'
  {
    seq(k, _ => '0')
  }

  /** `s` left-padded with zeros to at least `width` characters. */
  function ZeroPad(s: string, width: int): (r: string)
    ensures |r| == if width > |s| then width else |s|
    ensures r[|r| - |s|..] == s
    ensures forall j :: 0 <= j < |r| - |s| ==> r[j] == '0'
  {
    if width > |s| then Zeros(width - |s|) + s else s
  }

  /** Python's `"%0<width>d" % i`: the sign first, then zeros, then the digits, `width` characters at least. */
  function FormatZeroPadded(i: int, width: nat): (s: string)
    ensures |s| >= width && |s| > 0
    ensures i >= 0 ==> AllDigits(s)
    ensures i < 0 ==> s[0] == '-' && AllDigits(s[1..])
  {
    if i < 0 then
      var p := ZeroPad(Decimal(Magnitude(i)), width - 1);
      assert ("-" + p)[1..] == p;
      "-" + p
    else ZeroPad(Decimal(Magnitude(i)), width)
  }

  lemma {:induction false} RunValueDecimal(n: nat)
    ensures RunValue(Decimal(n)) == n
  {
    if n >= 10 {
      var s := Decimal(n);
      assert s[..|s| - 1] == Decimal(n / 10);
      RunValueDecimal(n / 10);
    }
  }

  lemma RunValueOfZeros(k: nat)
    ensures RunValue(Zeros(k)) == 0
  {
    if k > 0 {
      assert Zeros(k)[..k - 1] == Zeros(k - 1);
      RunValueOfZeros(k - 1);
    }
  }

  /** Leading zeros never change the value `int()` reads. */
  lemma {:induction false} RunValueLeadingZeros(k: nat, s: string)
    ensures RunValue(Zeros(k) + s) == RunValue(s)
    decreases |s|
  {
    if |s| == 0 {
      assert Zeros(k) + s == Zeros(k);
      RunValueOfZeros(k);
    } else {
      var t := Zeros(k) + s;
      assert t[..|t| - 1] == Zeros(k) + s[..|s| - 1];
      assert t[|t| - 1] == s[|s| - 1];
      RunValueLeadingZeros(k, s[..|s| - 1]);
    }
  }

  lemma DigitsAreRun(s: string)
    requires |s| > 0 && AllDigits(s)
    ensures IsDigitRun(s)
  {
  }

  lemma DigitsNoSpace(s: string)
    requires AllDigits(s)
    ensures NoSpace(s)
  {
    forall i | 0 <= i < |s| ensures !IsSpace(s[i]) {
      assert IsDigit(s[i]);
    }
  }

  /** The zero-padded body of a natural number reads back as that number. */
  lemma PaddedDigitsValue(n: nat, width: int)
    ensures AllDigits(ZeroPad(Decimal(n), width))
    ensures IsDigitRun(ZeroPad(Decimal(n), width))
    ensures RunValue(ZeroPad(Decimal(n), width)) == n
  {
    var d := Decimal(n);
    RunValueDecimal(n);
    if width > |d| {
      RunValueLeadingZeros(width - |d|, d);
    }
    DigitsAreRun(ZeroPad(d, width));
  }

  /** A digit string, signed or not, contains no whitespace, dot or slash. */
  lemma SignedDigitsPlain(sign: string, p: string)
    requires sign == "" || sign == "-"
    requires AllDigits(p)
    ensures NoSpace(sign + p)
    ensures forall j :: 0 <= j < |sign + p| ==> (sign + p)[j] != '.' && (sign + p)[j] != '/'
  {
    var r := sign + p;
    forall j | 0 <= j < |r| ensures !IsSpace(r[j]) && r[j] != '.' && r[j] != '/' {
      if j >= |sign| {
        assert r[j] == p[j - |sign|];
      }
    }
  }

  /** The zero-padded rendering has no whitespace, so `split()` keeps it whole. */
  lemma FormatZeroPaddedIsToken(i: int, width: nat)
    ensures IsToken(FormatZeroPadded(i, width))
    ensures forall j :: 0 <= j < |FormatZeroPadded(i, width)| ==> FormatZeroPadded(i, width)[j] != '.' && FormatZeroPadded(i, width)[j] != '/'
  {
    var s := FormatZeroPadded(i, width);
    if i < 0 {
      assert s == "-" + s[1..];
      SignedDigitsPlain("-", s[1..]);
    } else {
      assert s == "" + s;
      SignedDigitsPlain("", s);
    }
  }

  /** `int()` on a whitespace-free unsigned digit run. */
  lemma ParseUnsigned(t: string)
    requires NoSpace(t) && IsDigitRun(t)
    ensures ParseInt(t) == Ok(RunValue(t))
  {
  }

  lemma SignedNoSpace(p: string)
    requires NoSpace(p)
    ensures NoSpace("-" + p)
  {
    var t := "-" + p;
    forall j | 0 <= j < |t| ensures !IsSpace(t[j]) {
      if j > 0 {
        assert t[j] == p[j - 1];
      }
    }
  }

  /** `int()` on `-` followed by a whitespace-free digit run. */
  lemma ParseNegative(p: string)
    requires NoSpace(p) && IsDigitRun(p)
    ensures ParseInt("-" + p) == Ok(-(RunValue(p) as int))
  {
    SignedNoSpace(p);
    assert ("-" + p)[1..] == p;
  }

  lemma ParseFormatNonNegative(n: nat, width: nat)
    ensures ParseInt(FormatZeroPadded(n, width)) == Ok(n)
  {
    var r := ZeroPad(Decimal(n), width);
    assert FormatZeroPadded(n, width) == r by {
      assert Magnitude(n) == n;
    }
    PaddedDigitsValue(n, width);
    DigitsNoSpace(r);
    ParseUnsigned(r);
  }

  lemma ParseFormatNegative(i: int, width: nat)
    requires i < 0
    ensures ParseInt(FormatZeroPadded(i, width)) == Ok(i)
  {
    var n := Magnitude(i);
    var p := ZeroPad(Decimal(n), width - 1);
    PaddedDigitsValue(n, width - 1);
    DigitsNoSpace(p);
    ParseNegative(p);
  }

  /** `int("%0Nd" % i) == i`, for every integer and width when there is no digit limit. */
  lemma {:induction false} ParseFormatZeroPadded(i: int, width: nat)
    ensures |FormatZeroPadded(i, width)| >= width
    ensures ParseInt(FormatZeroPadded(i, width)) == Ok(i)
  {
    if i < 0 {
      ParseFormatNegative(i, width);
    } else {
      ParseFormatNonNegative(i, width);
    }
  }

  /** `str(i)` is the zero-padded format of width 0, hence `int(str(i)) == i`. */
  lemma {:induction false} ParseIntToString(i: int)
    ensures IntToString(i) == FormatZeroPadded(i, 0)
    ensures IsToken(IntToString(i))
    ensures ParseInt(IntToString(i)) == Ok(i)
  {
    ParseFormatZeroPadded(i, 0);
    FormatZeroPaddedIsToken(i, 0);
  }
}

=== FILE: models.dfy ===
/**
  The records of the CelebA database: the partition a file belongs to, the five
  facial landmarks of each image, its 40 binary face attributes, and the file
  itself with its rendered path.
 */
module Models {
  import opened Wrappers
  import opened Ints
  import opened Paths

  // ---------------------------------------------------------------------------
  // Purposes (dataset partitions)
  // ---------------------------------------------------------------------------

  /** The partition a file is used for. */
  datatype Purpose = Training | Validation | Test

  /** The purpose names, in the order the partition file numbers them. */
  const PurposeNames: seq<string> := ["training", "validation", "test"]

  function PurposeName(p: Purpose): (n: string)
    ensures n in PurposeNames
  {
    match p
    case Training => "training"
    case Validation => "validation"
    case Test => "test"
  }

  /** The purpose a name denotes, if it is one of the three purpose names. */
  function PurposeNamed(n: string): (r: Option<Purpose>)
    ensures r.Some? <==> n in PurposeNames
    ensures r.Some? ==> PurposeName(r.value) == n
  {
    if n == "training" then Some(Training)
    else if n == "validation" then Some(Validation)
    else if n == "test" then Some(Test)
    else None
  }

  /** Names and purposes are in one-to-one correspondence. */
  lemma PurposeNamesBijective(p: Purpose, q: Purpose)
    ensures |PurposeNames| == 3
    ensures PurposeNamed(PurposeName(p)) == Some(p)
    ensures PurposeName(p) == PurposeName(q) <==> p == q
  {
  }

  // ---------------------------------------------------------------------------
  // Annotation (facial landmarks)
  // ---------------------------------------------------------------------------

  /** A landmark position as the list file writes it: column `x`, then row `y`. */
  datatype Landmark = Landmark(x: int, y: int)

  /** The five landmarks of one image, named as the record's fields name them. */
  datatype Annotation = Annotation(
    fileId: int,
    leftEye: Landmark,
    rightEye: Landmark,
    nose: Landmark,
    leftMouth: Landmark,
    rightMouth: Landmark)

  /** The ten label values an annotation was built from, in list-file order. */
  function Labels(a: Annotation): (labels: seq<int>)
    ensures |labels| == 10
  {
    [ a.leftEye.x, a.leftEye.y, a.rightEye.x, a.rightEye.y, a.nose.x, a.nose.y,
      a.leftMouth.x, a.leftMouth.y, a.rightMouth.x, a.rightMouth.y ]
  }

  /**
    Construction from the ten integers of a landmark line. Exactly ten are
    required (an `AssertionError` otherwise), and the record reproduces them:
    reading its labels back in list-file order gives the input.
   */
  function NewAnnotation(fileId: int, labels: seq<int>): (r: Result<Annotation>)
    ensures r.Ok? <==> |labels| == 10
    ensures r.Err? ==> r.error == AssertionError
    ensures r.Ok? ==> r.value.fileId == fileId && Labels(r.value) == labels
  {
    if |labels| != 10 then Err(AssertionError)
    else
      Ok(Annotation(
        fileId,
        leftEye := Landmark(labels[0], labels[1]),
        rightEye := Landmark(labels[2], labels[3]),
        nose := Landmark(labels[4], labels[5]),
        leftMouth := Landmark(labels[6], labels[7]),
        rightMouth := Landmark(labels[8], labels[9])))
  }

  /** The keys of the landmark dictionary. */
  const LandmarkKeys: set<string> := {"reye", "leye", "nose", "rmouth", "lmouth"}

  /** A landmark as a `(y, x)` pair: row first. */
  function RowColumn(l: Landmark): (int, int) {
    (l.y, l.x)
  }

  /** Calling an annotation: the landmark dictionary, keyed by the five landmark names. */
  function AnnotationDict(a: Annotation): (d: map<string, (int, int)>)
    ensures d.Keys == LandmarkKeys
  {
    map[
      "reye" := RowColumn(a.rightEye),
      "leye" := RowColumn(a.leftEye),
      "nose" := RowColumn(a.nose),
      "rmouth" := RowColumn(a.rightMouth),
      "lmouth" := RowColumn(a.leftMouth)]
  }

  /**
    End to end from the ten list-file integers to the dictionary: `leye` comes
    from labels 0 and 1, `reye` from 2 and 3, `nose` from 4 and 5, `lmouth`
    from 6 and 7, `rmouth` from 8 and 9, each swapped into `(y, x)` order.
   */
  lemma {:induction false} AnnotationDictFromLabels(fileId: int, labels: seq<int>)
    requires |labels| == 10
    ensures NewAnnotation(fileId, labels).Ok?
    ensures AnnotationDict(NewAnnotation(fileId, labels).value) == map[
      "leye" := (labels[1], labels[0]),
      "reye" := (labels[3], labels[2]),
      "nose" := (labels[5], labels[4]),
      "lmouth" := (labels[7], labels[6]),
      "rmouth" := (labels[9], labels[8])]
  {
    var a := NewAnnotation(fileId, labels).value;
    var ls := Labels(a);
    assert ls[0] == a.leftEye.x && ls[1] == a.leftEye.y;
    assert ls[2] == a.rightEye.x && ls[3] == a.rightEye.y;
    assert ls[4] == a.nose.x && ls[5] == a.nose.y;
    assert ls[6] == a.leftMouth.x && ls[7] == a.leftMouth.y;
    assert ls[8] == a.rightMouth.x && ls[9] == a.rightMouth.y;
  }

  // ---------------------------------------------------------------------------
  // Attributes (40 binary face descriptors)
  // ---------------------------------------------------------------------------

  /** The attribute name at position `i` of the canonical order of the attribute list file. */
  function AttributeName(i: nat): string
    requires i < 40
  {
    if i == 0 then "5_o_Clock_Shadow"
    else if i == 1 then "Arched_Eyebrows"
    else if i == 2 then "Attractive"
    else if i == 3 then "Bags_Under_Eyes"
    else if i == 4 then "Bald"
    else if i == 5 then "Bangs"
    else if i == 6 then "Big_Lips"
    else if i == 7 then "Big_Nose"
    else if i == 8 then "Black_Hair"
    else if i == 9 then "Blond_Hair"
    else if i == 10 then "Blurry"
    else if i == 11 then "Brown_Hair"
    else if i == 12 then "Bushy_Eyebrows"
    else if i == 13 then "Chubby"
    else if i == 14 then "Double_Chin"
    else if i == 15 then "Eyeglasses"
    else if i == 16 then "Goatee"
    else if i == 17 then "Gray_Hair"
    else if i == 18 then "Heavy_Makeup"
    else if i == 19 then "High_Cheekbones"
    else if i == 20 then "Male"
    else if i == 21 then "Mouth_Slightly_Open"
    else if i == 22 then "Mustache"
    else if i == 23 then "Narrow_Eyes"
    else if i == 24 then "No_Beard"
    else if i == 25 then "Oval_Face"
    else if i == 26 then "Pale_Skin"
    else if i == 27 then "Pointy_Nose"
    else if i == 28 then "Receding_Hairline"
    else if i == 29 then "Rosy_Cheeks"
    else if i == 30 then "Sideburns"
    else if i == 31 then "Smiling"
    else if i == 32 then "Straight_Hair"
    else if i == 33 then "Wavy_Hair"
    else if i == 34 then "Wearing_Earrings"
    else if i == 35 then "Wearing_Hat"
    else if i == 36 then "Wearing_Lipstick"
    else if i == 37 then "Wearing_Necklace"
    else if i == 38 then "Wearing_Necktie"
    else "Young"
  }

  /** The attribute names, in canonical order. */
  const AttributeNames: seq<string> := CanonicalOrder()

  function CanonicalOrder(): (names: seq<string>)
    ensures |names| == 40
    ensures forall i :: 0 <= i < 40 ==> names[i] == AttributeName(i)
  {
    seq(40, i requires 0 <= i < 40 => AttributeName(i))
  }

  /**
    A three-character fingerprint (first, fourth and third-from-last
    character) that already tells the 40 names apart; it serves only to
    prove them distinct.
   */
  function Fingerprint(s: string): int {
    if |s| < 4 then 0 else ((s[0] as int) * 256 + s[3] as int) * 256 + s[|s| - 3] as int
  }

  /** The position of the attribute name with a given fingerprint (40 for none). */
  function IndexOfFingerprint(c: int): nat {
    if c == 3497828 then 0
    else if c == 4286575 then 1
    else if c == 4289129 then 2
    else if c == 4354937 then 3
    else if c == 4351073 then 4
    else if c == 4351854 then 5
    else if c == 4349801 then 6
    else if c == 4349807 then 7
    else if c == 4350817 then 8
    else if c == 4353633 then 9
    else if c == 4354674 then 10
    else if c == 4355937 then 11
    else if c == 4352111 then 12
    else if c == 4416098 then 13
    else if c == 4481640 then 14
    else if c == 4548467 then 15
    else if c == 4682868 then 16
    else if c == 4684129 then 17
    else if c == 4748901 then 18
    else if c == 4745326 then 19
    else if c == 5072225 then 20
    else if c == 5076080 then 21
    else if c == 5076067 then 22
    else if c == 5141113 then 23
    else if c == 5128801 then 24
    else if c == 5205089 then 25
    else if c == 5268843 then 26
    else if c == 5271151 then 27
    else if c == 5399913 then 28
    else if c == 5405029 then 29
    else if c == 5465458 then 30
    else if c == 5467241 then 31
    else if c == 5464417 then 32
    else if c == 5732705 then 33
    else if c == 5730926 then 34
    else if c == 5730888 then 35
    else if c == 5730921 then 36
    else if c == 5730913 then 37
    else if c == 5730932 then 38
    else if c == 5860981 then 39
    else 40
  }

  lemma FingerprintIndexFrom0(i: nat)
    requires 0 <= i < 8
    ensures IndexOfFingerprint(Fingerprint(AttributeName(i))) == i
  {
  }

  lemma FingerprintIndexFrom8(i: nat)
    requires 8 <= i < 16
    ensures IndexOfFingerprint(Fingerprint(AttributeName(i))) == i
  {
  }

  lemma FingerprintIndexFrom16(i: nat)
    requires 16 <= i < 24
    ensures IndexOfFingerprint(Fingerprint(AttributeName(i))) == i
  {
  }

  lemma FingerprintIndexFrom24(i: nat)
    requires 24 <= i < 32
    ensures IndexOfFingerprint(Fingerprint(AttributeName(i))) == i
  {
  }

  lemma FingerprintIndexFrom32(i: nat)
    requires 32 <= i < 40
    ensures IndexOfFingerprint(Fingerprint(AttributeName(i))) == i
  {
  }

  lemma FingerprintIndex(i: nat)
    requires i < 40
    ensures IndexOfFingerprint(Fingerprint(AttributeName(i))) == i
  {
    if i < 8 { FingerprintIndexFrom0(i); }
    else if i < 16 { FingerprintIndexFrom8(i); }
    else if i < 24 { FingerprintIndexFrom16(i); }
    else if i < 32 { FingerprintIndexFrom24(i); }
    else { FingerprintIndexFrom32(i); }
  }

  /** There are exactly 40 attribute names and no two are equal. */
  lemma AttributeNamesDistinct()
    ensures |AttributeNames| == 40
    ensures forall i, j :: 0 <= i < j < |AttributeNames| ==> AttributeNames[i] != AttributeNames[j]
  {
    forall i, j | 0 <= i < j < |AttributeNames| ensures AttributeNames[i] != AttributeNames[j] {
      FingerprintIndex(i);
      FingerprintIndex(j);
    }
  }

  /** The position of `name` in the canonical list (its first one), if it is there. */
  function AttributeIndex(name: string): (r: Option<nat>)
    ensures r.Some? <==> name in AttributeNames
    ensures r.Some? ==> r.value < |AttributeNames| && AttributeNames[r.value] == name
  {
    IndexIn(AttributeNames, name)
  }

  function IndexIn(names: seq<string>, name: string): (r: Option<nat>)
    ensures r.Some? <==> name in names
    ensures r.Some? ==> r.value < |names| && names[r.value] == name
    ensures r.Some? ==> forall j :: 0 <= j < r.value ==> names[j] != name
  {
    if |names| == 0 then None
    else if names[0] == name then Some(0)
    else match IndexIn(names[1..], name)
      case None => None
      case Some(k) => Some(k + 1)
  }

  /** Each canonical name is found at its own position. */
  lemma AttributeIndexOfName(i: nat)
    requires i < |AttributeNames|
    ensures AttributeIndex(AttributeNames[i]) == Some(i)
  {
    var j := AttributeIndex(AttributeNames[i]).value;
    assert AttributeNames[j] == AttributeNames[i];
    FingerprintIndex(i);
    FingerprintIndex(j);
  }

  /** The stored flags: one boolean column per attribute name. */
  type AttributeFlags = s: seq<bool> | |s| == 40 witness seq(40, _ => false)

  datatype AttributeRecord = AttributeRecord(fileId: int, flags: AttributeFlags)

  /**
    Construction from the 40 integers of an attribute line: exactly 40 are
    required, and flag `i` is set exactly when value `i` is `1`.
   */
  function NewAttributes(fileId: int, values: seq<int>): (r: Result<AttributeRecord>)
    ensures r.Ok? <==> |values| == 40
    ensures r.Err? ==> r.error == AssertionError
    ensures r.Ok? ==> r.value.fileId == fileId
    ensures r.Ok? ==> forall i :: 0 <= i < 40 ==> (r.value.flags[i] <==> values[i] == 1)
  {
    if |values| != 40 then Err(AssertionError)
    else Ok(AttributeRecord(fileId, seq(40, i requires 0 <= i < 40 => values[i] == 1)))
  }

  /** A flag rendered as `+1` (present) or `-1` (absent). */
  function Sign(b: bool): int {
    if b then 1 else -1
  }

  /**
    The `+1`/`-1` value of each named attribute, in the order of `names`; a
    name that is not an attribute raises `AttributeError`.
   */
  function AttributeValues(rec: AttributeRecord, names: seq<string>): (r: Result<seq<int>>)
    ensures r.Ok? <==> forall k :: 0 <= k < |names| ==> names[k] in AttributeNames
    ensures r.Err? ==> r.error == AttributeError
    ensures r.Ok? ==> |r.value| == |names|
    ensures r.Ok? ==> forall k :: 0 <= k < |names| ==>
      && (r.value[k] == 1 || r.value[k] == -1)
      && (r.value[k] == 1 <==> rec.flags[AttributeIndex(names[k]).value])
  {
    if |names| == 0 then Ok([])
    else match AttributeIndex(names[0])
      case None => Err(AttributeError)
      case Some(i) =>
        match AttributeValues(rec, names[1..])
        case Err(e) => Err(e)
        case Ok(rest) => Ok([Sign(rec.flags[i])] + rest)
  }

  /** Calling an attributes record: all 40 values when no names are given, else those named. */
  function CallAttributes(rec: AttributeRecord, names: Option<seq<string>>): (r: Result<seq<int>>)
    ensures r.Ok? <==> names.None? || forall k :: 0 <= k < |names.value| ==> names.value[k] in AttributeNames
    ensures r.Err? ==> r.error == AttributeError
    ensures names.None? ==> r.Ok? && |r.value| == 40
  {
    AttributeValues(rec, if names.None? then AttributeNames else names.value)
  }

  /** Without names the result is the whole vector: 40 values, each `+1` or `-1`, value `i` for attribute `i`. */
  lemma {:induction false} FullAttributeVector(rec: AttributeRecord)
    ensures CallAttributes(rec, None).Ok?
    ensures |CallAttributes(rec, None).value| == 40
    ensures forall i :: 0 <= i < 40 ==> CallAttributes(rec, None).value[i] == Sign(rec.flags[i])
  {
    var r := CallAttributes(rec, None).value;
    forall i | 0 <= i < 40 ensures r[i] == Sign(rec.flags[i]) {
      AttributeIndexOfName(i);
    }
  }

  /** An attribute line of `+1`/`-1` values comes back unchanged from the record built from it. */
  lemma {:induction false} AttributesRoundTrip(fileId: int, values: seq<int>)
    requires |values| == 40
    requires forall i :: 0 <= i < 40 ==> values[i] == 1 || values[i] == -1
    ensures NewAttributes(fileId, values).Ok?
    ensures CallAttributes(NewAttributes(fileId, values).value, None) == Ok(values)
  {
    var rec := NewAttributes(fileId, values).value;
    FullAttributeVector(rec);
    assert CallAttributes(rec, None).value == values;
  }

  /** Conversely, rebuilding a record from its own vector gives the same record. */
  lemma {:induction false} AttributesRebuild(rec: AttributeRecord)
    ensures NewAttributes(rec.fileId, CallAttributes(rec, None).value) == Ok(rec)
  {
    FullAttributeVector(rec);
    var r := NewAttributes(rec.fileId, CallAttributes(rec, None).value).value;
    assert r.flags == rec.flags;
  }

  /**
    Selecting by names is a projection of the full vector: value `k` is the
    full vector's value at the canonical position of `names[k]`.
   */
  lemma {:induction false} AttributesSubset(rec: AttributeRecord, names: seq<string>)
    requires forall k :: 0 <= k < |names| ==> names[k] in AttributeNames
    ensures CallAttributes(rec, Some(names)).Ok?
    ensures |CallAttributes(rec, Some(names)).value| == |names|
    ensures forall k :: 0 <= k < |names| ==>
      CallAttributes(rec, Some(names)).value[k] == CallAttributes(rec, None).value[AttributeIndex(names[k]).value]
  {
    FullAttributeVector(rec);
  }

  /** The attribute vector of the first CelebA image survives construction and calling unchanged. */
  lemma FirstImageAttributes()
    ensures var first := [-1, 1, 1, -1, -1, -1, -1, -1, -1, -1, -1, 1, -1, -1, -1, -1, -1, -1, 1, 1,
                          -1, 1, -1, -1, 1, -1, -1, 1, -1, -1, -1, 1, 1, -1, 1, -1, 1, -1, -1, 1];
            NewAttributes(1, first).Ok? && CallAttributes(NewAttributes(1, first).value, None) == Ok(first)
  {
    var first := [-1, 1, 1, -1, -1, -1, -1, -1, -1, -1, -1, 1, -1, -1, -1, -1, -1, -1, 1, 1,
                  -1, 1, -1, -1, 1, -1, -1, 1, -1, -1, -1, 1, 1, -1, 1, -1, 1, -1, -1, 1];
    AttributesRoundTrip(1, first);
  }

  // ---------------------------------------------------------------------------
  // File
  // ---------------------------------------------------------------------------

  /** An image of the dataset: its numeric id and the partition it belongs to. */
  datatype File = File(id: int, purpose: Purpose)

  /** An absent string counts as empty. */
  function OrEmpty(s: Option<string>): string {
    if s.None? then "" else s.value
  }

  /** The base name of a file: its id zero-padded to at least six digits, then the extension. */
  function BaseName(id: int, extension: string): (b: string)
    ensures |b| >= 6 + |extension|
    ensures b[|b| - |extension|..] == extension
  {
    FormatZeroPadded(id, 6) + extension
  }

  /** A base name never starts with `/`, so joining it never discards the directory. */
  lemma BaseNameIsRelative(id: int, extension: string)
    ensures |BaseName(id, extension)| >= 6 && BaseName(id, extension)[0] != '/'
  {
    ParseFormatZeroPadded(id, 6);
    FormatZeroPaddedIsToken(id, 6);
    assert BaseName(id, extension)[0] == FormatZeroPadded(id, 6)[0];
  }

  /**
    The path of a file: an absent or empty directory or extension counts as
    `''`; the base name is the id padded to six digits plus the extension,
    and a non-empty directory is joined in front with a `/`.
   */
  function MakePath(f: File, directory: Option<string>, extension: Option<string>): (path: string)
    ensures OrEmpty(directory) == "" ==> path == BaseName(f.id, OrEmpty(extension))
    ensures OrEmpty(directory) != "" ==>
      path == OrEmpty(directory) + (if OrEmpty(directory)[|OrEmpty(directory)| - 1] == '/' then "" else "/")
                                 + BaseName(f.id, OrEmpty(extension))
  {
    var d, b := OrEmpty(directory), BaseName(f.id, OrEmpty(extension));
    BaseNameIsRelative(f.id, OrEmpty(extension));
    assert b[0] != '/';
    Join(d, b)
  }

  /** A path starts with its directory and ends with its extension, with at least six characters of id between them. */
  lemma MakePathShape(f: File, directory: Option<string>, extension: Option<string>)
    ensures var path, d, e := MakePath(f, directory, extension), OrEmpty(directory), OrEmpty(extension);
      && |path| >= |d| + 6 + |e|
      && path[..|d|] == d
      && path[|path| - |e|..] == e
  {
    var d, e := OrEmpty(directory), OrEmpty(extension);
    var b := BaseName(f.id, e);
    var sep := if d == "" || d[|d| - 1] == '/' then "" else "/";
    var path := MakePath(f, directory, extension);
    assert path == d + sep + b;
    assert path[..|d|] == d;
    assert path[|path| - |e|..] == b[|b| - |e|..];
  }
}

=== FILE: paths.dfy ===
/** POSIX path helpers of Python's `os.path`: `join` of two parts and the root half of `splitext`. */
module Paths {

  /** Index of the last occurrence of `c` in `s`, or -1 (Python's `str.rfind`). */
  function RFind(s: string, c: char): (r: int)
    ensures -1 <= r < |s|
    ensures r >= 0 ==> s[r] == c
    ensures forall j :: r < j < |s| ==> s[j] != c
  {
    if |s| == 0 then -1
    else if s[|s| - 1] == c then |s| - 1
    else RFind(s[..|s| - 1], c)
  }

  /** `posixpath.join(a, b)`: an absolute `b` replaces `a`; otherwise one `/` separates them unless `a` is empty or already ends in `/`. */
  function Join(a: string, b: string): string {
    if |b| > 0 && b[0] == '/' then b
    else if |a| == 0 || a[|a| - 1] == '/' then a + b
    else a + "/" + b
  }

  /**
    A joined path ends in `b`. An absolute `b` is the whole result; a relative
    one keeps `a` as the prefix, with a `/` directly before `b` when `a` is not
    empty, and adds at most that one character.
   */
  lemma JoinShape(a: string, b: string)
    ensures var r := Join(a, b);
      && |r| >= |b| && r[|r| - |b|..] == b
      && (|b| > 0 && b[0] == '/' ==> r == b)
      && ((|b| == 0 || b[0] != '/') ==> |a| <= |r| <= |a| + 1 + |b| && r[..|a|] == a)
      && ((|b| == 0 || b[0] != '/') && |a| > 0 ==> |r| > |b| && r[|r| - |b| - 1] == '/')
  {
  }

  /** Some character of `p[lo..hi]` is not a dot. */
  predicate HasNonDot(p: string, lo: int, hi: int) {
    exists k :: lo <= k < hi && 0 <= k < |p| && p[k] != '.'
  }

  /**
    `posixpath.splitext(p)[0]`: `p` cut before its last `.`, provided that dot
    lies in the last path component and is preceded there by some character
    other than `.`; otherwise `p` unchanged.
   */
  function SplitExtRoot(p: string): (root: string)
    ensures root == p || (exists d :: 0 <= d < |p| && p[d] == '.' && root == p[..d])
  {
    var sepIndex := RFind(p, '/');
    var dotIndex := RFind(p, '.');
    if dotIndex > sepIndex && HasNonDot(p, sepIndex + 1, dotIndex) then
      p[..dotIndex]
    else p
  }

  /** An extension in the sense of `splitext`: a dot followed by no further dot or slash. */
  predicate IsExtension(ext: string) {
    && |ext| > 0
    && ext[0] == '.'
    && forall j :: 1 <= j < |ext| ==> ext[j] != '.' && ext[j] != '/'
  }

  /** `splitext` recovers the stem of a base name written as stem plus extension. */
  lemma {:induction false} SplitExtRootOfName(stem: string, ext: string)
    requires |stem| > 0 && stem[0] != '.'
    requires forall j :: 0 <= j < |stem| ==> stem[j] != '/'
    requires IsExtension(ext) || (ext == "" && forall j :: 0 <= j < |stem| ==> stem[j] != '.')
    ensures SplitExtRoot(stem + ext) == stem
  {
    var p := stem + ext;
    forall j | 0 <= j < |p| ensures p[j] != '/' {
      if j < |stem| {
        assert p[j] == stem[j];
      } else {
        assert p[j] == ext[j - |stem|];
      }
    }
    var sepIndex := RFind(p, '/');
    var dotIndex := RFind(p, '.');
    assert sepIndex == -1;
    if ext == "" {
      assert p == stem;
      assert dotIndex == -1;
    } else {
      forall j | |stem| < j < |p| ensures p[j] != '.' {
        assert p[j] == ext[j - |stem|];
      }
      assert p[|stem|] == '.';
      assert dotIndex == |stem|;
      assert p[0] != '.' && 0 < dotIndex;
      assert p[..dotIndex] == stem;
    }
  }

  /** The last `c` of `a + b` is the last one of `b`, or else the last one of `a`. */
  lemma {:induction false} RFindAppend(a: string, b: string, c: char)
    ensures RFind(a + b, c) == if RFind(b, c) >= 0 then |a| + RFind(b, c) else RFind(a, c)
    decreases |b|
  {
    if |b| == 0 {
      assert a + b == a;
    } else {
      assert (a + b)[..|a + b| - 1] == a + b[..|b| - 1];
      RFindAppend(a, b[..|b| - 1], c);
    }
  }

  /**
    Under a directory prefix that is empty or ends in `/`, `splitext` cuts a
    slash-free name exactly where it cuts the name alone: dots in the
    directory never count.
   */
  lemma {:induction false} SplitExtRootUnder(q: string, name: string)
    requires |q| == 0 || q[|q| - 1] == '/'
    requires forall j :: 0 <= j < |name| ==> name[j] != '/'
    ensures SplitExtRoot(q + name) == q + SplitExtRoot(name)
  {
    var p := q + name;
    RFindAppend(q, name, '/');
    RFindAppend(q, name, '.');
    assert RFind(name, '/') == -1;
    assert RFind(q, '/') == |q| - 1;
    var dn := RFind(name, '.');
    if dn >= 0 {
      assert RFind(p, '.') == |q| + dn;
      HasNonDotUnder(q, name, dn);
      if HasNonDot(name, 0, dn) {
        assert SplitExtRoot(name) == name[..dn];
        assert p[..|q| + dn] == q + name[..dn];
      } else {
        assert SplitExtRoot(name) == name;
      }
    } else {
      assert RFind(p, '.') < |q|;
      assert SplitExtRoot(name) == name;
    }
  }

  lemma HasNonDotUnder(q: string, name: string, dn: int)
    requires 0 <= dn <= |name|
    ensures HasNonDot(q + name, |q|, |q| + dn) <==> HasNonDot(name, 0, dn)
  {
    var p := q + name;
    if HasNonDot(name, 0, dn) {
      var k :| 0 <= k < dn && 0 <= k < |name| && name[k] != '.';
      assert p[|q| + k] == name[k];
    }
    if HasNonDot(p, |q|, |q| + dn) {
      var k :| |q| <= k < |q| + dn && 0 <= k < |p| && p[k] != '.';
      assert name[k - |q|] == p[k];
    }
  }

  /**
    `splitext` of a joined path cuts only the extension of the last part: the
    directory, whatever dots it holds, is kept whole, so cutting and joining
    commute.
   */
  lemma {:induction false} SplitExtRootOfJoin(d: string, stem: string, ext: string)
    requires |stem| > 0 && stem[0] != '.'
    requires forall j :: 0 <= j < |stem| ==> stem[j] != '/'
    requires IsExtension(ext) || (ext == "" && forall j :: 0 <= j < |stem| ==> stem[j] != '.')
    ensures SplitExtRoot(Join(d, stem + ext)) == Join(d, stem)
  {
    var q := if |d| == 0 || d[|d| - 1] == '/' then d else d + "/";
    var name := stem + ext;
    forall j | 0 <= j < |name| ensures name[j] != '/' {
      if j < |stem| {
        assert name[j] == stem[j];
      } else {
        assert name[j] == ext[j - |stem|];
      }
    }
    assert Join(d, name) == q + name;
    assert Join(d, stem) == q + stem;
    SplitExtRootUnder(q, name);
    SplitExtRootOfName(stem, ext);
  }
}

=== FILE: query.dfy ===
/**
  The read-only accessor of the CelebA database: parameter validation, the
  file listing by purpose, and the per-file path, landmark and attribute
  look-ups. The SQL tables are modelled as an immutable `Store`.
 */
module Query {
  import opened Wrappers
  import opened Ints
  import opened Models

  // ---------------------------------------------------------------------------
  // Parameter validation
  // ---------------------------------------------------------------------------

  /** A query parameter as callers pass it: `None`, one string, or a list/tuple of strings. */
  datatype Param = Unspecified | Scalar(item: string) | Several(items: seq<string>)

  /**
    The values a parameter stands for before validation: the defaults (or, with
    no defaults, every valid value) for `None`, a one-element tuple for a
    single string, and the list itself otherwise.
   */
  function Requested(parameters: Param, valid: seq<string>, defaults: Option<seq<string>>): seq<string> {
    match parameters
    case Unspecified => if defaults.Some? then defaults.value else valid
    case Scalar(item) => [item]
    case Several(items) => items
  }

  /**
    Validation of a query parameter: every requested value must be one of
    `valid`, else `ValueError`. Only `None` is replaced (an empty list stays
    empty), and defaults that replace it are validated like any other value.
   */
  function CheckParameters(parameters: Param, valid: seq<string>, defaults: Option<seq<string>>): (r: Result<seq<string>>)
    ensures r.Err? ==> r.error == ValueError
    ensures r.Ok? ==> forall k :: 0 <= k < |r.value| ==> r.value[k] in valid
    ensures parameters.Scalar? ==> (r.Ok? <==> parameters.item in valid) && (r.Ok? ==> r.value == [parameters.item])
    ensures parameters.Several? ==>
      && (r.Ok? <==> forall k :: 0 <= k < |parameters.items| ==> parameters.items[k] in valid)
      && (r.Ok? ==> r.value == parameters.items)
    ensures parameters.Unspecified? && defaults.None? ==> r == Ok(valid)
    ensures parameters.Unspecified? && defaults.Some? ==>
      && (r.Ok? <==> forall k :: 0 <= k < |defaults.value| ==> defaults.value[k] in valid)
      && (r.Ok? ==> r.value == defaults.value)
  {
    var ps := Requested(parameters, valid, defaults);
    assert parameters.Scalar? ==> |ps| == 1 && ps[0] == parameters.item;
    if forall k :: 0 <= k < |ps| ==> ps[k] in valid then Ok(ps) else Err(ValueError)
  }

  /** A validated list passes validation again unchanged. */
  lemma {:induction false} CheckParametersIdempotent(parameters: Param, valid: seq<string>, defaults: Option<seq<string>>)
    requires CheckParameters(parameters, valid, defaults).Ok?
    ensures CheckParameters(Several(CheckParameters(parameters, valid, defaults).value), valid, defaults)
         == CheckParameters(parameters, valid, defaults)
  {
    var ps := CheckParameters(parameters, valid, defaults).value;
    assert forall k :: 0 <= k < |ps| ==> ps[k] in valid;
  }

  // ---------------------------------------------------------------------------
  // The database
  // ---------------------------------------------------------------------------

  /**
    The content of the SQL tables: the file table in storage order, and the
    annotation and attribute rows keyed by the id of the file they belong to.
   */
  datatype Store = Store(
    files: seq<File>,
    annotations: map<int, Annotation>,
    attributes: map<int, AttributeRecord>)

  /** The accessor: where original images live, their extension, and the tables. */
  datatype Database = Database(
    originalDirectory: Option<string>,
    originalExtension: Option<string>,
    store: Store)

  /** The constructor's defaults: no original directory and the extension `.jpg`. */
  function DefaultDatabase(store: Store): (db: Database)
    ensures db.originalDirectory.None? && db.originalExtension == Some(".jpg")
    ensures db.store == store
  {
    Database(None, Some(".jpg"), store)
  }

  /** The 40 attribute names, in canonical order, each found at its own position. */
  function AttributeNamesOf(db: Database): (names: seq<string>)
    ensures |names| == 40
    ensures forall i, j :: 0 <= i < j < |names| ==> names[i] != names[j]
    ensures forall i :: 0 <= i < |names| ==> AttributeIndex(names[i]) == Some(i)
  {
    AttributeNamesDistinct();
    forall i | 0 <= i < 40 ensures AttributeIndex(AttributeNames[i]) == Some(i) {
      AttributeIndexOfName(i);
    }
    AttributeNames
  }

  // ---------------------------------------------------------------------------
  // Listing files
  // ---------------------------------------------------------------------------

  /** Ids never decrease along `fs`: the order of `order_by(File.id)`. */
  predicate SortedById(fs: seq<File>) {
    forall i, j :: 0 <= i < j < |fs| ==> fs[i].id <= fs[j].id
  }

  /** `f` placed in front of the first element of `fs` whose id is not below its own. */
  function Insert(f: File, fs: seq<File>): (r: seq<File>)
    ensures multiset(r) == multiset(fs) + multiset{f}
  {
    if |fs| == 0 then [f]
    else if f.id <= fs[0].id then [f] + fs
    else
      assert fs == [fs[0]] + fs[1..];
      [fs[0]] + Insert(f, fs[1..])
  }

  /** Inserting into an id-sorted list keeps it sorted. */
  lemma {:induction false} InsertSorted(f: File, fs: seq<File>)
    requires SortedById(fs)
    ensures SortedById(Insert(f, fs))
  {
    if |fs| > 0 && f.id > fs[0].id {
      var rest := Insert(f, fs[1..]);
      InsertSorted(f, fs[1..]);
      forall k | 0 <= k < |rest| ensures fs[0].id <= rest[k].id {
        assert rest[k] in multiset(rest);
        assert rest[k] == f || rest[k] in multiset(fs[1..]);
      }
    }
  }

  /** The files ordered by id: a sorted permutation of the input. */
  function SortById(fs: seq<File>): (r: seq<File>)
    ensures SortedById(r)
    ensures multiset(r) == multiset(fs)
  {
    if |fs| == 0 then []
    else
      assert fs == [fs[0]] + fs[1..];
      InsertSorted(fs[0], SortById(fs[1..]));
      Insert(fs[0], SortById(fs[1..]))
  }

  /** The files whose purpose is named in `names`, in their original order. */
  function WithPurposeIn(fs: seq<File>, names: seq<string>): (r: seq<File>)
    ensures forall k :: 0 <= k < |r| ==> PurposeName(r[k].purpose) in names
  {
    if |fs| == 0 then []
    else
      assert fs == [fs[0]] + fs[1..];
      if PurposeName(fs[0].purpose) in names then [fs[0]] + WithPurposeIn(fs[1..], names)
      else WithPurposeIn(fs[1..], names)
  }

  /** Filtering keeps each file of a named purpose as often as it occurs, and drops every other file. */
  lemma {:induction false} WithPurposeInCounts(fs: seq<File>, names: seq<string>)
    ensures forall x: File :: multiset(WithPurposeIn(fs, names))[x]
                              == if PurposeName(x.purpose) in names then multiset(fs)[x] else 0
  {
    if |fs| > 0 {
      WithPurposeInCounts(fs[1..], names);
      assert fs == [fs[0]] + fs[1..];
    }
  }

  /** Each file has exactly one of the three purposes, so the three single-purpose filters split the list. */
  lemma {:induction false} WithPurposeInPartition(fs: seq<File>)
    ensures multiset(WithPurposeIn(fs, ["training"]))
          + multiset(WithPurposeIn(fs, ["validation"]))
          + multiset(WithPurposeIn(fs, ["test"]))
         == multiset(fs)
  {
    var t, v, e := WithPurposeIn(fs, ["training"]), WithPurposeIn(fs, ["validation"]), WithPurposeIn(fs, ["test"]);
    WithPurposeInCounts(fs, ["training"]);
    WithPurposeInCounts(fs, ["validation"]);
    WithPurposeInCounts(fs, ["test"]);
    forall x: File ensures (multiset(t) + multiset(v) + multiset(e))[x] == multiset(fs)[x] {
      match x.purpose
      case Training =>
        assert multiset(v)[x] == 0 && multiset(e)[x] == 0;
      case Validation =>
        assert multiset(t)[x] == 0 && multiset(e)[x] == 0;
      case Test =>
        assert multiset(t)[x] == 0 && multiset(v)[x] == 0;
    }
  }

  /** Filtering never brings in an id below a bound all input ids respect. */
  lemma {:induction false} WithPurposeInBound(fs: seq<File>, names: seq<string>, bound: int)
    requires forall k :: 0 <= k < |fs| ==> bound <= fs[k].id
    ensures forall k :: 0 <= k < |WithPurposeIn(fs, names)| ==> bound <= WithPurposeIn(fs, names)[k].id
  {
    if |fs| > 0 {
      WithPurposeInBound(fs[1..], names, bound);
    }
  }

  /** Filtering keeps the relative order, hence the sortedness, of the files it keeps. */
  lemma {:induction false} WithPurposeInSorted(fs: seq<File>, names: seq<string>)
    requires SortedById(fs)
    ensures SortedById(WithPurposeIn(fs, names))
  {
    if |fs| > 0 {
      WithPurposeInSorted(fs[1..], names);
      WithPurposeInBound(fs[1..], names, fs[0].id);
    }
  }

  /**
    The files of the given purposes, ordered by id. A purpose that is not one
    of the three names raises `ValueError`; `None` lists every file, while an
    explicit list, even an empty one, keeps only the purposes it names.
   */
  function Objects(db: Database, purposes: Param): (r: Result<seq<File>>)
    ensures r.Err? <==> CheckParameters(purposes, PurposeNames, None).Err?
    ensures r.Err? ==> r.error == ValueError
    ensures r.Ok? ==> SortedById(r.value)
    ensures r.Ok? && purposes.Unspecified? ==> multiset(r.value) == multiset(db.store.files)
  {
    var names :- CheckParameters(purposes, PurposeNames, None);
    var ordered := SortById(db.store.files);
    if purposes.Unspecified? then Ok(ordered)
    else
      WithPurposeInSorted(ordered, names);
      Ok(WithPurposeIn(ordered, names))
  }

  /**
    The listing holds every file whose purpose is requested, as often as the
    file table holds it, and no other file.
   */
  lemma ObjectsSelects(db: Database, purposes: Param)
    requires Objects(db, purposes).Ok?
    ensures forall x: File :: multiset(Objects(db, purposes).value)[x]
                              == if PurposeName(x.purpose) in Requested(purposes, PurposeNames, None) then multiset(db.store.files)[x] else 0
  {
    WithPurposeInCounts(SortById(db.store.files), Requested(purposes, PurposeNames, None));
  }

  /** Only the three purpose names are accepted: any other single name, such as `world`, is a `ValueError`. */
  lemma ObjectsOfUnknownPurpose(db: Database, purpose: string)
    ensures Objects(db, Scalar(purpose)).Err? <==> purpose !in PurposeNames
    ensures purpose == "world" ==> Objects(db, Scalar(purpose)) == Err(ValueError)
  {
  }

  /** An explicit empty list of purposes selects no file at all. */
  lemma ObjectsOfNoPurpose(db: Database)
    ensures Objects(db, Several([])) == Ok([])
  {
    ObjectsSelects(db, Several([]));
    var r := Objects(db, Several([])).value;
    assert forall x :: multiset(r)[x] == 0;
    assert multiset(r) == multiset{};
  }

  /** Naming all three purposes lists the same files as naming none. */
  lemma {:induction false} ObjectsOfAllPurposes(db: Database)
    ensures Objects(db, Several(PurposeNames)).Ok?
    ensures multiset(Objects(db, Several(PurposeNames)).value) == multiset(Objects(db, Unspecified).value)
  {
    ObjectsSelects(db, Several(PurposeNames));
    var all := Objects(db, Several(PurposeNames)).value;
    forall x: File ensures multiset(all)[x] == multiset(db.store.files)[x] {
      assert PurposeName(x.purpose) in PurposeNames;
    }
    assert multiset(all) == multiset(db.store.files);
  }

  /** The training, validation and test listings partition the full listing. */
  lemma {:induction false} ObjectsPartition(db: Database)
    ensures Objects(db, Scalar("training")).Ok?
    ensures Objects(db, Scalar("validation")).Ok?
    ensures Objects(db, Scalar("test")).Ok?
    ensures multiset(Objects(db, Scalar("training")).value)
          + multiset(Objects(db, Scalar("validation")).value)
          + multiset(Objects(db, Scalar("test")).value)
         == multiset(Objects(db, Unspecified).value)
  {
    var ordered := SortById(db.store.files);
    assert Objects(db, Scalar("training")) == Ok(WithPurposeIn(ordered, ["training"]));
    assert Objects(db, Scalar("validation")) == Ok(WithPurposeIn(ordered, ["validation"]));
    assert Objects(db, Scalar("test")) == Ok(WithPurposeIn(ordered, ["test"]));
    WithPurposeInPartition(ordered);
  }

  // ---------------------------------------------------------------------------
  // Per-file look-ups
  // ---------------------------------------------------------------------------

  /** The full path of a file's original image, from the database's directory and extension. */
  function OriginalFileName(db: Database, f: File): (path: string)
    ensures |path| >= |OrEmpty(db.originalDirectory)| + 6 + |OrEmpty(db.originalExtension)|
    ensures path[..|OrEmpty(db.originalDirectory)|] == OrEmpty(db.originalDirectory)
    ensures path[|path| - |OrEmpty(db.originalExtension)|..] == OrEmpty(db.originalExtension)
  {
    MakePathShape(f, db.originalDirectory, db.originalExtension);
    MakePath(f, db.originalDirectory, db.originalExtension)
  }

  /**
    With a directory and the default extension, the original file name is the
    directory joined with the six-digit id and `.jpg`.
   */
  lemma OriginalFileNameWithDirectory(store: Store, directory: string, f: File)
    requires directory != "" && directory[|directory| - 1] != '/'
    ensures OriginalFileName(Database(Some(directory), Some(".jpg"), store), f)
         == directory + "/" + FormatZeroPadded(f.id, 6) + ".jpg"
  {
    var db := Database(Some(directory), Some(".jpg"), store);
    assert OriginalFileName(db, f) == MakePath(f, Some(directory), Some(".jpg"));
    assert BaseName(f.id, ".jpg") == FormatZeroPadded(f.id, 6) + ".jpg";
  }

  /** The first file of the dataset, in `/path/to/files`. */
  lemma OriginalFileNameOfFirstImage(store: Store)
    ensures OriginalFileName(Database(Some("/path/to/files"), Some(".jpg"), store), File(1, Training))
         == "/path/to/files/000001.jpg"
  {
    OriginalFileNameWithDirectory(store, "/path/to/files", File(1, Training));
    assert Decimal(1) == "1";
    assert Zeros(5) == "00000";
    assert FormatZeroPadded(1, 6) == "000001";
  }

  /** The landmark dictionary of a file; a file without an annotation row fails. */
  function Annotations(db: Database, f: File): (r: Result<map<string, (int, int)>>)
    ensures r.Ok? <==> f.id in db.store.annotations
    ensures r.Err? ==> r.error == MissingRecord
    ensures r.Ok? ==> r.value.Keys == LandmarkKeys
  {
    if f.id in db.store.annotations then Ok(AnnotationDict(db.store.annotations[f.id]))
    else Err(MissingRecord)
  }

  /**
    The attribute values of a file, `+1` or `-1` each: all 40 in canonical
    order for `None`, else those named, in the order named. The names are
    validated before the record is looked up, so an unknown name is a
    `ValueError` even for a file without attributes, and the record itself is
    never asked for an unknown name.
   */
  function Attributes(db: Database, f: File, names: Param): (r: Result<seq<int>>)
    ensures r.Err? ==> r.error == ValueError || r.error == MissingRecord
    ensures r.Err? && r.error == ValueError <==> CheckParameters(names, AttributeNames, None).Err?
    ensures r.Ok? <==> CheckParameters(names, AttributeNames, None).Ok? && f.id in db.store.attributes
    ensures r.Ok? ==> |r.value| == |Requested(names, AttributeNames, None)|
    ensures r.Ok? ==> forall k :: 0 <= k < |r.value| ==> r.value[k] == 1 || r.value[k] == -1
  {
    var checked :- CheckParameters(names, AttributeNames, None);
    if f.id !in db.store.attributes then Err(MissingRecord)
    else CallAttributes(db.store.attributes[f.id], Some(checked))
  }

  /**
    Without names, the query returns the record's full vector: the value at
    position `i` is `+1` exactly when attribute `i` is set.
   */
  lemma {:induction false} AttributesOfFile(db: Database, f: File)
    requires f.id in db.store.attributes
    ensures Attributes(db, f, Unspecified) == CallAttributes(db.store.attributes[f.id], None)
    ensures Attributes(db, f, Unspecified).Ok?
    ensures |Attributes(db, f, Unspecified).value| == |AttributeNamesOf(db)|
    ensures forall i :: 0 <= i < 40 ==>
      Attributes(db, f, Unspecified).value[i] == Sign(db.store.attributes[f.id].flags[i])
  {
    FullAttributeVector(db.store.attributes[f.id]);
  }

  /** Asking for named attributes picks, in the given order, entries of the full vector. */
  lemma {:induction false} AttributesOfNames(db: Database, f: File, names: seq<string>)
    requires f.id in db.store.attributes
    requires forall k :: 0 <= k < |names| ==> names[k] in AttributeNames
    ensures Attributes(db, f, Several(names)).Ok?
    ensures |Attributes(db, f, Several(names)).value| == |names|
    ensures forall k :: 0 <= k < |names| ==>
      Attributes(db, f, Several(names)).value[k] == Attributes(db, f, Unspecified).value[AttributeIndex(names[k]).value]
  {
    AttributesSubset(db.store.attributes[f.id], names);
  }
}

=== FILE: strings.dfy ===
/**
  The parts of Python's `str` that the list-file parser relies on:
  `isspace`, `rstrip()` and argument-less `split()`.
 */
module Strings {

  /** Python's `str.isspace()` on one character: the whitespace set `split()` and `rstrip()` use. */
  predicate IsSpace(c: char) {
    || c == ' '
    || ('\t' <= c <= '\r')
    || ('\U{1C}' <= c <= '\U{1F}')
    || c == '\U{85}'
    || c == '\U{A0}'
    || c == '\U{1680}'
    || ('\U{2000}' <= c <= '\U{200A}')
    || c == '\U{2028}'
    || c == '\U{2029}'
    || c == '\U{202F}'
    || c == '\U{205F}'
    || c == '\U{3000}'
  }

  /** No character of `s` is whitespace. */
  predicate NoSpace(s: string) {
    forall i :: 0 <= i < |s| ==> !IsSpace(s[i])
  }

  /** Every character of `s` is whitespace. */
  predicate AllSpace(s: string) {
    forall i :: 0 <= i < |s| ==> IsSpace(s[i])
  }

  /** A token of `split()`: a non-empty run of non-whitespace characters. */
  predicate IsToken(t: string) {
    |t| > 0 && NoSpace(t)
  }

  /** The characters of `s` that are not whitespace, in order. */
  function NonSpace(s: string): string {
    if |s| == 0 then ""
    else if IsSpace(s[0]) then NonSpace(s[1..])
    else [s[0]] + NonSpace(s[1..])
  }

  /** Concatenation of a sequence of strings. */
  function Concat(ts: seq<string>): string {
    if |ts| == 0 then "" else ts[0] + Concat(ts[1..])
  }

  /** Length of the longest whitespace-free prefix of `s`. */
  function TokenEnd(s: string): (n: nat)
    ensures n <= |s|
    ensures NoSpace(s[..n])
    ensures n < |s| ==> IsSpace(s[n])
  {
    if |s| == 0 || IsSpace(s[0]) then 0
    else
      var n := 1 + TokenEnd(s[1..]);
      assert s[..n] == [s[0]] + s[1..][..n - 1];
      n
  }

  /** Python's `s.split()`: the maximal whitespace-free runs of `s`, left to right. */
  function Split(s: string): (ts: seq<string>)
    ensures forall k :: 0 <= k < |ts| ==> IsToken(ts[k])
    ensures |ts| <= |s|
    decreases |s|
  {
    if |s| == 0 then []
    else if IsSpace(s[0]) then Split(s[1..])
    else
      var n := TokenEnd(s);
      [s[..n]] + Split(s[n..])
  }

  /** Python's `s.rstrip()`: `s` without its trailing whitespace. */
  function RStrip(s: string): (r: string)
    ensures |r| <= |s| && r == s[..|r|]
    ensures AllSpace(s[|r|..])
    ensures |r| > 0 ==> !IsSpace(r[|r| - 1])
  {
    if |s| > 0 && IsSpace(s[|s| - 1]) then
      var r := RStrip(s[..|s| - 1]);
      assert s[..|s| - 1][..|r|] == s[..|r|];
      assert s[|r|..] == s[..|s| - 1][|r|..] + [s[|s| - 1]];
      r
    else s
  }

  /** The tokens written back out with one blank between neighbours. */
  function JoinTokens(ts: seq<string>): string {
    if |ts| == 0 then ""
    else if |ts| == 1 then ts[0]
    else ts[0] + " " + JoinTokens(ts[1..])
  }

  /** Whitespace-free texts stay whitespace-free when concatenated. */
  lemma NoSpaceAppend(a: string, b: string)
    requires NoSpace(a) && NoSpace(b)
    ensures NoSpace(a + b)
  {
    forall i | 0 <= i < |a + b| ensures !IsSpace((a + b)[i]) {
      if i >= |a| {
        assert (a + b)[i] == b[i - |a|];
      }
    }
  }

  lemma SplitAllSpace(w: string)
    requires AllSpace(w)
    ensures Split(w) == []
    decreases |w|
  {
    if |w| > 0 {
      SplitAllSpace(w[1..]);
    }
  }

  lemma TokenEndAppend(a: string, w: string)
    requires |w| == 0 || IsSpace(w[0])
    ensures TokenEnd(a + w) == TokenEnd(a)
    decreases |a|
  {
    if |a| > 0 && !IsSpace(a[0]) {
      assert (a + w)[1..] == a[1..] + w;
      TokenEndAppend(a[1..], w);
    }
  }

  /** Trailing whitespace never changes the tokens. */
  lemma {:induction false} SplitAppendSpace(a: string, w: string)
    requires AllSpace(w)
    ensures Split(a + w) == Split(a)
    decreases |a|
  {
    if |a| == 0 {
      assert a + w == w;
      SplitAllSpace(w);
    } else if IsSpace(a[0]) {
      assert (a + w)[1..] == a[1..] + w;
      SplitAppendSpace(a[1..], w);
    } else {
      TokenEndAppend(a, w);
      var n := TokenEnd(a);
      assert (a + w)[..n] == a[..n];
      assert (a + w)[n..] == a[n..] + w;
      SplitAppendSpace(a[n..], w);
    }
  }

  /** `line.rstrip().split()` yields exactly the tokens of `line.split()`. */
  lemma {:induction false} SplitRStrip(s: string)
    ensures Split(RStrip(s)) == Split(s)
  {
    var r := RStrip(s);
    assert s == r + s[|r|..];
    SplitAppendSpace(r, s[|r|..]);
  }

  lemma NonSpaceAppend(a: string, b: string)
    ensures NonSpace(a + b) == NonSpace(a) + NonSpace(b)
    decreases |a|
  {
    if |a| > 0 {
      assert (a + b)[1..] == a[1..] + b;
      NonSpaceAppend(a[1..], b);
    } else {
      assert a + b == b;
    }
  }

  lemma NonSpaceOfToken(t: string)
    requires NoSpace(t)
    ensures NonSpace(t) == t
    decreases |t|
  {
    if |t| > 0 {
      NonSpaceOfToken(t[1..]);
      assert t == [t[0]] + t[1..];
    }
  }

  /** No character is lost or invented: the tokens, glued together, are the non-whitespace text of the line. */
  lemma {:induction false} SplitKeepsText(s: string)
    ensures Concat(Split(s)) == NonSpace(s)
    decreases |s|
  {
    if |s| == 0 {
    } else if IsSpace(s[0]) {
      SplitKeepsText(s[1..]);
    } else {
      var n := TokenEnd(s);
      assert s == s[..n] + s[n..];
      NonSpaceAppend(s[..n], s[n..]);
      NonSpaceOfToken(s[..n]);
      SplitKeepsText(s[n..]);
      assert Split(s)[1..] == Split(s[n..]);
    }
  }

  /** Splitting tokens written with single blanks between them gives the same tokens back. */
  lemma {:induction false} SplitJoinTokens(ts: seq<string>)
    requires forall k :: 0 <= k < |ts| ==> IsToken(ts[k])
    ensures Split(JoinTokens(ts)) == ts
    decreases |ts|
  {
    if |ts| == 0 {
    } else if |ts| == 1 {
      var t := ts[0];
      TokenEndAppend(t, "");
      assert t + "" == t;
      assert TokenEnd(t) == |t|;
      assert t[..|t|] == t && t[|t|..] == "";
    } else {
      var t := ts[0];
      var rest := JoinTokens(ts[1..]);
      var s := t + " " + rest;
      assert s == t + (" " + rest);
      TokenEndAppend(t, " " + rest);
      assert TokenEnd(t) == |t|;
      assert s[..|t|] == t;
      assert s[|t|..] == " " + rest;
      assert (" " + rest)[1..] == rest;
      SplitJoinTokens(ts[1..]);
      assert [t] + ts[1..] == ts;
    }
  }
  /** `split()` skips leading whitespace and ends a token at the first whitespace after it. */
  lemma {:induction false} SplitSeparated(w: string, t: string, rest: string)
    requires AllSpace(w) && IsToken(t)
    requires |rest| == 0 || IsSpace(rest[0])
    ensures Split(w + t + rest) == [t] + Split(rest)
    decreases |w|
  {
    var s := w + t + rest;
    if |w| > 0 {
      assert s[0] == w[0];
      assert s[1..] == w[1..] + t + rest;
      SplitSeparated(w[1..], t, rest);
    } else {
      assert s == t + rest;
      assert s[0] == t[0];
      TokenEndAppend(t, rest);
      assert TokenEnd(t) == |t|;
      assert s[..|t|] == t && s[|t|..] == rest;
    }
  }

  /**
    Tokens laid out in columns: token `k` followed by the whitespace `ws[k]`.
    Neighbouring tokens need at least one whitespace character between them.
   */
  predicate IsLayout(ts: seq<string>, ws: seq<string>) {
    && |ws| == |ts|
    && (forall k :: 0 <= k < |ts| ==> IsToken(ts[k]))
    && (forall k :: 0 <= k < |ws| ==> AllSpace(ws[k]))
    && (forall k :: 0 <= k < |ws| - 1 ==> |ws[k]| > 0)
  }

  /** The text of a column layout: each token followed by its whitespace. */
  function Layout(ts: seq<string>, ws: seq<string>): string
    requires |ws| == |ts|
  {
    if |ts| == 0 then "" else ts[0] + ws[0] + Layout(ts[1..], ws[1..])
  }

  /**
    `split()` recovers the tokens of any column layout, whatever the runs of
    whitespace before, between and after them.
   */
  lemma {:induction false} SplitLayout(lead: string, ts: seq<string>, ws: seq<string>)
    requires AllSpace(lead) && IsLayout(ts, ws)
    ensures Split(lead + Layout(ts, ws)) == ts
    decreases |ts|
  {
    if |ts| == 0 {
      assert lead + Layout(ts, ws) == lead;
      SplitAllSpace(lead);
    } else {
      var rest := ws[0] + Layout(ts[1..], ws[1..]);
      assert lead + Layout(ts, ws) == lead + ts[0] + rest;
      if |ws[0]| == 0 {
        assert |ts| == 1 && rest == "";
      } else {
        assert rest[0] == ws[0][0];
      }
      SplitSeparated(lead, ts[0], rest);
      assert IsLayout(ts[1..], ws[1..]);
      SplitLayout(ws[0], ts[1..], ws[1..]);
      assert [ts[0]] + ts[1..] == ts;
    }
  }
}

=== FILE: wrappers.dfy ===
/** Failure-carrying values for the Python exceptions the CelebA accessor can raise. */
module Wrappers {

  /** A value that may be absent: Python's `None` versus a present value. */
  datatype Option<+T> = None | Some(value: T)

  /** The exceptions the modelled code raises, by the Python class that carries them. */
  datatype PyError =
    | AssertionError   // a failed `assert` on a token or value count
    | ValueError       // `int()` on malformed text, or an invalid query parameter
    | KeyError         // a partition index that is not '0', '1' or '2'
    | AttributeError   // an attribute name unknown to an `Attributes` record
    | MissingRecord    // a file without an annotation or attributes record
    | UnboundCounter   // the load loop's `counter` read although the loop never ran

  /** Either a computed value or the exception that aborted the computation. */
  datatype Result<+T> = Ok(value: T) | Err(error: PyError) {

    predicate IsFailure() {
      Err?
    }

    function PropagateFailure<U>(): Result<U>
      requires Err?
    {
      Err(error)
    }

    function Extract(): T
      requires Ok?
    {
      value
    }
  }

  /**
    `f` applied to each element, left to right, collecting the values; the
    first element on which `f` fails aborts the whole with that failure.
   */
  function Collect<A, T>(xs: seq<A>, f: A -> Result<T>): (r: Result<seq<T>>)
    ensures r.Ok? <==> forall k :: 0 <= k < |xs| ==> f(xs[k]).Ok?
    ensures r.Ok? ==> |r.value| == |xs| && forall k :: 0 <= k < |xs| ==> f(xs[k]) == Ok(r.value[k])
    ensures r.Err? ==> exists k :: 0 <= k < |xs| && f(xs[k]) == Err(r.error)
                          && forall j :: 0 <= j < k ==> f(xs[j]).Ok?
  {
    if |xs| == 0 then Ok([])
    else
      var first := f(xs[0]);
      if first.Err? then
        assert f(xs[0]) == Err(first.error);
        Err(first.error)
      else
        var rest := Collect(xs[1..], f);
        if rest.Err? then
          var k :| 0 <= k < |xs[1..]| && f(xs[1..][k]) == Err(rest.error)
                  && forall j :: 0 <= j < k ==> f(xs[1..][j]).Ok?;
          assert f(xs[k + 1]) == Err(rest.error);
          Err(rest.error)
        else Ok([first.value] + rest.value)
  }

  /** When `f` succeeds on every element, collecting gives exactly its values. */
  lemma {:induction false} CollectAll<A, T>(xs: seq<A>, f: A -> Result<T>, ys: seq<T>)
    requires |xs| == |ys|
    requires forall k :: 0 <= k < |xs| ==> f(xs[k]) == Ok(ys[k])
    ensures Collect(xs, f) == Ok(ys)
  {
    var r := Collect(xs, f);
    assert r.Ok?;
    assert forall k :: 0 <= k < |xs| ==> r.value[k] == ys[k];
    assert r.value == ys;
  }
}
